=== FILE: README.md ===
# libcapn push client core, modelled in Dafny

This project models the decision logic of libcapn's `src/library/apn.c`.
libcapn is a C client for Apple's binary push notification protocol. It
covers these parts:

- the connection context `apn_ctx_t` and its setters;
- the connect/close lifecycle, with the network and TLS stack as an oracle;
- the TLS read/write wrappers and their error table;
- the batch engine `__apn_send_binary_message`;
- the retry/reconnect controller `apn_send`, with invalid-token harvesting;
- the 6-byte error frame and the translation of its status byte;
- the feedback reader `apn_feedback`;
- the private-key password callback and the log filter.

Sockets, `select()` and OpenSSL never run in the model. Each place where
the C code waits or calls out becomes a value that the caller supplies:

- `SocketEvent`: one readiness outcome plus the I/O that follows it.
- `Network`: what the resolver, socket, TCP connect and TLS handshake answer.
- `WriteCall` and `ReadCall`: one SSL_write or SSL_read result.
- `Round`: one pass of `apn_send`'s loop.
- `FeedbackEvent`: one wait of the feedback loop.

A function that runs out of oracle values reports that the C code would still
be waiting (`Waiting`, `Looping`, `Blocked`, `StillWaiting`). Nothing in the
model claims that the C loops terminate.

Modules, one per file:

| file | module | contents |
|---|---|---|
| types.dfy | Types | byte and integer subset types, `Option`, `uint32` successor, big-endian codecs |
| errors.dfy | Errors | `ApnError`, the status table, the error code `apn_send` acts on |
| error_frame.dfy | ErrorFrame | the server's 6-byte error frame |
| transport.dfy | Transport | `__ssl_write` / `__ssl_read` |
| config.dfy | Config | the context record, setters, password callback, log filter |
| lifecycle.dfy | Lifecycle | server table, `__apn_connect`, `apn_close`, connection guard |
| engine.dfy | BatchEngine | `__apn_send_binary_message`, recursively and as a loop |
| send.dfy | Send | `apn_send` |
| feedback.dfy | Feedback | feedback tuples and `apn_feedback` |

The `APN_ERR_*` numbers come from apn.h, which is not part of this model.
`ApnError` therefore names them as constructors. `System(n)` stands for an
operating-system errno that the library passes through. errno is sometimes
left stale by the C code:

- after a frame is read in the batch engine;
- after `SSL_connect` fails;
- after `SSL_CTX_new` fails.

On those paths the stale value is a parameter.

## Model

| member | source | states |
|---|---|---|
| Types.DecodeEncodeBE32 | src/library/apn.c:777-794 | reading back a 32-bit value written in network order gives the value |
| Types.EncodeDecodeBE32 | src/library/apn.c:777-794 | every 4 bytes are the network-order encoding of what ntohl reads from them |
| Types.DecodeEncodeBE16 | src/library/apn.c:465-470 | a 16-bit value survives network order |
| Types.EncodeDecodeBE16 | src/library/apn.c:465-470 | every 2 bytes are the encoding of what ntohs reads from them |
| Types.Succ32 | src/library/apn.c:381-392 | the `uint32_t` index plus one equals the index plus one below 2^32-1 and wraps to 0 at 2^32-1 |
| Errors.ConvertAppleError | src/library/apn.c:950-967 | status 0 yields no code; 1, 7 and 10 each have their own kind; 5 and 8 both mean invalid token; every other status is Unknown; each direction is proved |
| Errors.ErrorCode | src/library/apn.c:356 | a zero status falls back to errno, and a nonzero status always yields a server-reported kind |
| Errors.FieldStatusesCollapse | src/library/apn.c:950-967 | missing-token, missing-topic, missing-payload and topic-size statuses cannot be told apart, and token size reads as invalid token |
| ErrorFrame.Parse | src/library/apn.c:777-794 | another command byte leaves both outputs unchanged; status 8 writes the network-order identifier; any other status keeps the caller's identifier |
| ErrorFrame.ParseEncoded | src/library/apn.c:777-794 | parsing an encoded frame recovers its status, and its identifier exactly when the status is invalid token |
| ErrorFrame.ParseIgnoresOtherCommands | src/library/apn.c:781 | a frame whose command is not 8 is ignored whatever it carries |
| ErrorFrame.InvalidTokenFrameDetermined | src/library/apn.c:777-794 | an invalid-token frame is fully determined by the identifier read from it |
| Transport.Classify | src/library/apn.c:699-775 | WANT_READ, WANT_WRITE and an interrupted call are retried; EPIPE, ETIMEDOUT, a zero return and no error map to their codes; everything else is the direction's generic failure; each direction is proved |
| Transport.ClassifySharedTable | src/library/apn.c:699-775 | read and write differ only in the catch-all, and no transport failure is a server-reported kind |
| Transport.SslWrite | src/library/apn.c:699-738 | succeeds only once the bytes accepted add up to the full length; fails with the code of the first fatal error; retries the rest |
| Transport.SslRead | src/library/apn.c:740-775 | returns the first positive count, or the code of the first fatal error, after only retryable errors |
| Config.Init | src/library/apn.c:134-157 | a fresh context has no socket, session, credentials or callbacks, production mode, and error-level logging |
| Config.SetCertificate | src/library/apn.c:193-217 | clears the PEM fields; stores the key only under a non-empty certificate and the passphrase only under a non-empty key; keeps every other field; preserves well-formed credentials |
| Config.SetPkcs12File | src/library/apn.c:219-235 | stores the file with its passphrase when the file is non-empty, clears both otherwise, and keeps every other field |
| Config.SetMode | src/library/apn.c:237-244 | sets the mode and nothing else |
| Config.SettersDoNotClearEachOther | src/library/apn.c:193-235 | setting PEM credentials keeps a PKCS12 setup in use, and setting a PKCS12 file keeps the PEM fields |
| Config.PasswordCallback | src/library/apn.c:581-594 | returns 0 without a password or with a non-positive size; otherwise returns the length of a copy that is a prefix of the password and shorter than the buffer |
| Config.PasswordCopyLossless | src/library/apn.c:581-594 | the copy is the whole password exactly when it fits with its terminator, else it is cut to size-1 |
| Config.LogTargets | src/library/apn.c:798-831 | the callback gets a message only if set and the level enabled; stderr only if its option is set and the level enabled |
| Config.LogFilterExact | src/library/apn.c:798-831 | a message passes the filter exactly when some sink receives it, and each sink receives it exactly under its condition |
| Config.Emits | src/library/apn.c:799 | the filter at the head of the logger; its meaning is stated by Config.LogFilterExact |
| Config.StderrPrefix | src/library/apn.c:813-826 | info is tagged `inf`, error `err` and debug `dbg`; each tag belongs to exactly one level |
| Config.LogBuffer | src/library/apn.c:803-808 | the formatted message is kept whole exactly when it fits the 1024-byte buffer with its terminator, else cut to its first 1023 bytes, one `char` per byte |
| Config.StderrLine | src/library/apn.c:813-827 | the stderr line is `[`, the level's tag, `] `, the buffered message and a newline |
| Config.StderrLineReadable | src/library/apn.c:813-827 | two messages print the same stderr line exactly when they have the same level and the same buffered text |
| Lifecycle.ServerFor | src/library/apn.c:81-86 | sandbox mode selects the `sandbox.` host of each service and production the plain `push.apple.com` one; `gateway.` hosts on port 2195 serve notifications and `feedback.` hosts on port 2196 the feedback service |
| Lifecycle.ServerForInjective | src/library/apn.c:81-86 | different service/mode pairs dial different servers |
| Lifecycle.TlsError | src/library/apn.c:969-1101 | a rejected credential reports the PKCS12 error exactly when the PKCS12 branch was taken |
| Config.UsesPkcs12 | src/library/apn.c:982 | the TLS setup takes the PKCS12 branch exactly when both PKCS12 fields are set; what that decides is stated by Lifecycle.TlsError, Lifecycle.Connect and Config.SettersDoNotClearEachOther |
| Lifecycle.CredentialsPresent | src/library/apn.c:599-610 | the credential pre-check; its meaning is stated by the first two ensures of Lifecycle.Connect |
| Lifecycle.Connect | src/library/apn.c:596-697 | the certificate is checked before the key, and neither with a PKCS12 file; an existing socket makes connect a successful no-op; otherwise it dials; a resolve, socket or TCP failure reports the system errno and changes nothing; a TLS failure still leaves the dialled socket stored; an established handshake returns success with a session on that socket; no failure is a server kind |
| Lifecycle.ApnConnect | src/library/apn.c:296-304 | dials `gateway.sandbox.push.apple.com` in sandbox mode and `gateway.push.apple.com` otherwise, on port 2195 |
| Lifecycle.FeedbackConnect | src/library/apn.c:413-422 | marks the context as a feedback context even if the connect fails, and dials `feedback.sandbox.push.apple.com` in sandbox mode and `feedback.push.apple.com` otherwise, on port 2196 |
| Lifecycle.Close | src/library/apn.c:171-191 | with a session, drops both session and socket; without one, changes nothing |
| Lifecycle.CloseIdempotent | src/library/apn.c:171-191 | closing twice is closing once |
| Lifecycle.ConnectTwiceIsNoOp | src/library/apn.c:612 | a second connect after a successful one reports success without dialling |
| Lifecycle.CloseThenConnectDials | src/library/apn.c:171-191 | closing a live session and connecting again dials afresh |
| Lifecycle.EarlyTlsFailureWedges | src/library/apn.c:676-682 | a TLS failure before a session exists leaves a socket that close keeps and connect accepts as connected, while the context still cannot send |
| Lifecycle.CanSend | src/library/apn.c:306-311 | the send guard; what it admits is stated by Lifecycle.FeedbackContextNeverSends, Lifecycle.EarlyTlsFailureWedges and Send.ApnSend |
| Lifecycle.FeedbackContextNeverSends | src/library/apn.c:306-311 | a context that went through the feedback connect can never pass the send guard |
| BatchEngine.Loop | src/library/apn.c:881-913 | the outer loop over token indices; its meaning is stated by BatchEngine.EngineOrdering and BatchEngine.SendBinaryMessage |
| BatchEngine.Await | src/library/apn.c:882-913 | the inner select loop for one token; its meaning is stated by BatchEngine.EngineOrdering and BatchEngine.AwaitIgnoresLaterEvents |
| BatchEngine.Trailing | src/library/apn.c:915-933 | the trailing wait for a late error frame; its meaning is stated by BatchEngine.EngineOrdering |
| BatchEngine.Engine | src/library/apn.c:866-934 | `__apn_send_binary_message`; its meaning is stated by BatchEngine.EngineOrdering, BatchEngine.QuietServerDeliversAll and BatchEngine.SendBinaryMessage |
| BatchEngine.EngineOrdering | src/library/apn.c:866-934 | tokens are stamped in index order from the start, each written after its stamp and before the next; a readable socket stops before the current token is written; a read failure reports the current index; a server frame names an index only for an invalid token; success means every token was written; a select, read or write failure leaves a transport code, never a server kind |
| BatchEngine.LoopIgnoresLaterEvents | src/library/apn.c:915-926 | a finished run does not depend on later events, so the trailing check is skipped once a frame was read |
| BatchEngine.AwaitIgnoresLaterEvents | src/library/apn.c:882-913 | the select loop reads no event past the one that decides it |
| BatchEngine.QuietServerDeliversAll | src/library/apn.c:882-933 | when every wait is writable and the trailing wait times out, every remaining token is written once, in order, and the batch succeeds |
| BatchEngine.SendBinaryMessage | src/library/apn.c:866-934 | the loop version with nested select loop and trailing check performs exactly the recursively defined run |
| Send.ResumeIndex | src/library/apn.c:381 | the resume index before the reconnect rule; its meaning is stated by Send.Resume |
| Send.Resume | src/library/apn.c:381-402 | succeeds exactly for an invalid token with nothing left; fails with the error exactly for any other error at or past the end; reconnects exactly when tokens remain and the option and error allow it, resuming one past the index and setting the reconnect flag exactly then; otherwise loops again without setting it, and a flag set by an earlier pass still forces a reconnect (Send.Pass never clears it) |
| Send.ReconnectEligible | src/library/apn.c:386-389 | the errors that allow a reconnect; which codes these are is stated by Send.ReconnectEligibleCodes, and what they decide by Send.Resume |
| Send.ReconnectEligibleCodes | src/library/apn.c:386-389 | a server-reported failure allows a reconnect exactly for statuses 5, 8 and 10; a transport failure exactly when the connection was closed |
| Send.Cut | src/library/apn.c:370 | the copy `apn_strndup` makes is a prefix of the token of at most 64 bytes, equal to the token exactly when the token fits |
| Send.Collect | src/library/apn.c:357-375 | on an invalid token, and only when the caller asked for the collection, the token's copy cut to 64 bytes is appended and the callback is told with the whole token; nothing changes otherwise |
| Send.Finish | src/library/apn.c:406-409 | the collection is handed back exactly when it was asked for and is non-empty |
| Send.AfterRejection | src/library/apn.c:356-402 | the error code is the one Errors.ErrorCode gives and the decision the one Send.Resume gives: the call succeeds exactly on `Succeed`, fails exactly on `Fail` with its code, and otherwise loops from the decided start, setting the reconnect flag exactly on `Reconnect`; the harvest is exactly Send.Collect's; a stop hands back the collection exactly when asked for and non-empty |
| Send.EngineFailureIsTransport | src/library/apn.c:866-934 | a rejected batch that `apn_send` would fail on (an index at or past the end and no invalid token) carries a transport code, never a server kind |
| Send.Attempt | src/library/apn.c:338-402 | the engine runs from the current start; a delivered batch stops with success and nothing new harvested; an exhausted oracle stops looping; a rejection goes through Send.AfterRejection with the engine's actions appended; a failure is never a server kind |
| Send.Pass | src/library/apn.c:335-403 | a failed reconnect stops with its code; a successful one continues on the new connection, where the assertion fails exactly when the start is past the batch and otherwise the pass is Send.Attempt; without reconnecting, the assertion fails exactly when the start is past the batch, and otherwise the pass is Send.Attempt; the harvest stays sound, the collection and trace only grow, the feedback flag and callback are kept, the reconnect flag is never cleared, and a failure is never a server kind |
| Send.Iterate | src/library/apn.c:335-403 | across all passes, the handed-back collection is non-empty, holds only the cut copies of batch tokens, loses nothing gathered, is absent when not asked for; the callback is used only when set; actions are only appended; the call never fails with a server-reported kind |
| Send.ApnSend | src/library/apn.c:314-411 | a context without a session, or a feedback context, is refused with not-connected and nothing done; otherwise the harvest guarantees of the loop hold, and a failure never carries a server-reported kind, since server errors lead to another pass or to success |
| Send.FailureOnlyAfterLastToken | src/library/apn.c:381-402 | on an established connection, a pass fails only after a read error in the trailing wait, with a transport code; select, write and server errors never lead to a failure |
| Send.QuietPass | src/library/apn.c:335-355 | over a quiet server the first pass writes every token once, in order, and stops with success and nothing harvested |
| Send.QuietBatchSent | src/library/apn.c:314-411 | on a connected context, a quiet server gets every token written once, in order, and the call succeeds on the same connection with nothing handed back, whatever later rounds would say |
| Send.ProcessingErrorLoops | src/library/apn.c:381-402 | a server answering every batch with status 1 keeps `apn_send` looping from token 0 for as many passes as it answers |
| Send.FirstPassRejectsB | src/library/apn.c:356-402 | with tokens A, B, C and B rejected after C was stamped, the first pass harvests B and goes round again from C, reconnecting exactly when the option is set |
| Send.ReconnectedPassDeliversC | src/library/apn.c:336-355 | after the reconnect, the new connection is established and C is written and delivered on it |
| Send.InvalidTokenWithReconnect | src/library/apn.c:381-394 | with tokens A, B, C and B rejected, the reconnect option resumes at C on a new connection, writes C once, succeeds, and hands back B |
| Send.InvalidTokenWithoutReconnect | src/library/apn.c:381-402 | the same batch without the option does not fail; it loops again on the same connection from C and succeeds |
| Send.InvalidLastTokenSucceeds | src/library/apn.c:395-398 | an invalid token at the last index ends in success, with its cut copy handed back and the callback told with the whole token |
| Send.ReconnectPastEndAborts | src/library/apn.c:387-394 | a shutdown frame on a one-token batch with reconnect resumes past the end, so the engine's assertion at line 873 fails |
| Send.InvalidTokenSizeBlamesFirstToken | src/library/apn.c:356-375 | a token-size frame is harvested as an invalid token at index 0, whichever identifier the frame carries |
| Feedback.DecodeTuple | src/library/apn.c:458-470 | timestamp and length are the network-order readings of bytes 0-3 and 4-5; the token is bytes 6-37 |
| Feedback.DecodeEncodeTuple | src/library/apn.c:458-470 | decoding an encoded tuple gives the tuple |
| Feedback.EncodeDecodeTuple | src/library/apn.c:458-470 | every 38-byte buffer is the encoding of its decoding |
| Feedback.TokenOf | src/library/apn.c:464-472 | the token kept is the tuple's token field |
| Feedback.TokenIgnoresHeader | src/library/apn.c:464-472 | two tuples give the same token exactly when their token bytes agree, whatever their timestamp and length fields |
| Feedback.ReadLoop | src/library/apn.c:441-484 | every answer holds at most one token; a failure hands back an empty collection; the loop is still waiting exactly when every wait was interrupted |
| Feedback.InterruptionsIgnored | src/library/apn.c:441-456 | interrupted waits before the deciding event change nothing; a timeout gives an empty success; a tuple gives exactly its token |
| Feedback.ApnFeedback | src/library/apn.c:424-484 | a context without a session or with the feedback flag is refused with not-connected and the collection untouched; a success needs a session on a context without the feedback flag and yields at most one token |
| Feedback.ApnFeedbackIntended | src/library/apn.c:431-434 | the corrected guard refuses every context not connected to the feedback service with the feedback not-connected code, and a success yields at most one token |
| Feedback.FeedbackAsWrittenRefusesFeedbackContext | src/library/apn.c:431-434 | as written, every successful feedback connect leads to a refusal, and a notification context is read as if it were the feedback service |
| Feedback.FeedbackIntendedServesFeedbackContext | src/library/apn.c:431-434 | with the corrected guard, a feedback connection receives the token the service sends, a notification connection is refused with the feedback not-connected code, and each connected context serves exactly one of the two guards |

## Left out

- OpenSSL itself: certificate and PKCS12 loading, `SSL_new`, `SSL_set_fd` and the handshake (apn.c:969-1101). These are foreign calls. `TlsFailure` names only where the setup stops, and `UsesPkcs12` names which branch it takes.
- Peer-certificate logging (apn.c:684-694), the SSL info callback, `apn_error_string`, and `__apn_log`'s formatting. These are string formatting and foreign calls. The filter, the 1024-byte buffer and the stderr line are modelled; the formatted text is a parameter, taken to be a C string given one `char` per byte.
- DNS resolution, socket creation, `connect()` and the `fcntl` calls (apn.c:612-676). The `Network` oracle stands for them. The non-blocking `fcntl` call passes `ctx->sock` (still -1) rather than the new socket. That mistake has no effect the oracle could show, so it is not modelled.
- `select()` timeouts, `sleep(1)` before a reconnect, and SIGPIPE handling. In the send engine's first wait, a timeout and an EINTR failure both re-select. Both appear as the single event `Timeout`. In the trailing wait an EINTR retry is not an event of its own.
- `apn_library_init` / `apn_library_free`. They manage global TLS state.
- Building the binary message from the payload, stamping its id and hex token, and hex conversion. These live in files that are not part of this model. `Stamp(i, token)` records the stamp. A payload that fails to convert makes `apn_send` return early, and that path is not modelled.
- Feedback tokens stay as their 32 raw bytes. Their hex rendering, an injective function computed elsewhere, is not modelled.
- Allocation failures: `malloc`, `apn_strndup` and `apn_array_init` returning NULL, and `apn_init` returning NULL. The model also omits ownership and `apn_free`.
- The trivial option and log-level setters and the getters (apn.c:246-294), `apn_version` and `apn_version_string`. They store or return one field. `Options` holds the two option bits the core reads. `logLevel` holds the enabled levels.
- `Init` takes the starting `options` as a parameter, because `apn_init` never initialises that field (apn.c:134-157).
- The failure codes that `SocketEvent` and `FeedbackEvent` carry for `select()`, `__ssl_write` and `__ssl_read` are any code that is not a server kind (`IoError`). Transport.Classify gives the exact set; the engine admits a wider one.
- `errcode` in `apn_send` is a `uint16_t`, so a system errno above 65535 would be truncated. The model keeps errno unbounded.
- A Dafny `string` stands for a C byte string, one `char` per byte. Lengths, the password copy (apn.c:589), the 1024-byte log buffer (apn.c:807) and the token copy (apn.c:370) therefore count bytes, and non-ASCII text must be given as its byte encoding, one `char` per byte. Config.PasswordCallback, Config.LogBuffer and Send.Cut count `char`s in that sense.
- Asserts are taken as enabled: the `assert` at apn.c:873 stops the program, which `Status.AssertionFailure` records. Built with NDEBUG, the assert is compiled out. With the start equal to the count, the loop at apn.c:881 then runs zero times and only the trailing wait at apn.c:915-925 runs. A quiet server then gives success, and the skipped token is never sent. That build is not modelled.
- `APN_TOKEN_LENGTH` is defined in apn.h, which is not part of this model. Send.TokenLength takes it as 64, the hex length of a 32-byte token.
- Send.Collect: an invalid-token index at or past the end of the batch harvests nothing. In the C code, `apn_array_item_at_index` decides what happens there, and that function is not part of this model.
- `apn_feedback` can be called with a socket that was never used for feedback. Whether the bytes read then form a tuple depends on the peer. `ReadLoop` takes whatever 38-byte buffer the oracle supplies. If `__ssl_read` delivers fewer bytes, the rest of the buffer is whatever the oracle says.

## Findings

| source | as written | input that shows it | evidently intended | confidence | as-written member | corrected member |
|---|---|---|---|---|---|---|
| src/library/apn.c:431 | `apn_feedback` refuses a context when `!ctx->ssl \|\| ctx->feedback`. That is the send guard copied, so it refuses every feedback connection. | any context after a successful `apn_feedback_connect`: the call always fails with not-connected | refuse when `!ctx->ssl \|\| !ctx->feedback`, so that only feedback connections are read, with `APN_ERR_NOT_CONNECTED_FEEDBACK`, the code apn.c defines for this case at lines 504-505 but never assigns | high (not executed) | Feedback.FeedbackAsWrittenRefusesFeedbackContext | Feedback.FeedbackIntendedServesFeedbackContext |

Behaviours of `apn_send` that the lemmas above pin down and that a caller
might not expect:

- With reconnection disabled, an invalid token that is not the last does not end the call. The loop goes round again on the same connection (Send.InvalidTokenWithoutReconnect).
- A status other than 5 or 8 reports index 0 and is not an invalid token. Unless it is a shutdown with reconnection enabled, the next pass restarts from token 0, possibly forever (Send.ProcessingErrorLoops). Status 5 is taken as an invalid token at index 0 (Send.InvalidTokenSizeBlamesFirstToken), and a shutdown with reconnection resumes at index 1 (Send.ReconnectPastEndAborts).
- Once a pass has reconnected, the reconnect flag stays set for the rest of the call (apn.c:332, 392, 336). Every later pass reconnects first, even one that follows an error the reconnect rule does not cover, such as status 1 (Send.Pass).
- A reconnect always resumes one past the reported index. The resume point can therefore lie beyond the batch, and the engine's assertion then fails (Send.ReconnectPastEndAborts). This happens with ordinary inputs: a one-token batch, the reconnect option, and a closed connection or a shutdown frame. Without asserts, the same call writes nothing and succeeds over a quiet server.

=== FILE: config.dfy ===
/** The connection context `apn_ctx_t` and the operations that configure it
    without touching the network: creation, credential setters, mode, the
    private-key password callback and the log filter
    (src/library/apn.c:134-157, 193-244, 581-594, 798-831). */
module Config {
  import opened Types

  datatype Mode = Production | Sandbox

  datatype LogLevel = Info | Error | Debug

  /** The two `apn_set_behavior` option bits the core consults. */
  datatype Options = Options(reconnect: bool, logStderr: bool)

  /** `apn_ctx_t`. A socket handle is present when `sock != -1`; `session`
      says whether `ssl` is non-NULL. Credential strings are NULL (None) or
      a copy of what the caller passed. The two callbacks are recorded only
      as present or absent. */
  datatype Context = Context(
    sock: Option<nat>,
    session: bool,
    certificate: Option<string>,
    privateKey: Option<string>,
    privateKeyPass: Option<string>,
    pkcs12File: Option<string>,
    pkcs12Pass: Option<string>,
    feedback: bool,
    mode: Mode,
    options: Options,
    logLevel: set<LogLevel>,
    logCallback: bool,
    invalidTokenCallback: bool)

  /** `apn_init`. The C code never initialises `options` (the struct comes
      from malloc), so its starting value is a parameter here. */
  function Init(options: Options): (c: Context)
    ensures c.sock.None? && !c.session && !c.feedback
    ensures c.certificate.None? && c.privateKey.None? && c.privateKeyPass.None?
    ensures c.pkcs12File.None? && c.pkcs12Pass.None?
    ensures c.mode == Production && c.logLevel == {Error}
    ensures !c.logCallback && !c.invalidTokenCallback
    ensures CredentialsWellFormed(c)
  {
    Context(None, false, None, None, None, None, None, false, Production, options, {Error}, false, false)
  }

  /** The shape every setter leaves the credentials in: a passphrase only
      under a key, a key only under a certificate, and a PKCS12 file always
      with its passphrase. */
  predicate CredentialsWellFormed(c: Context)
  {
    && (c.privateKeyPass.Some? ==> c.privateKey.Some?)
    && (c.privateKey.Some? ==> c.certificate.Some?)
    && (c.pkcs12File.Some? <==> c.pkcs12Pass.Some?)
  }

  /** `apn_set_certificate`: clears the three PEM fields, then stores the
      certificate if non-empty, the key only under it, and the passphrase
      only under the key. The PKCS12 fields are left as they were. */
  function SetCertificate(c: Context, cert: Option<string>, key: Option<string>, pass: Option<string>): (c': Context)
    ensures c'.certificate == (if NonEmpty(cert) then cert else None)
    ensures c'.privateKey.Some? <==> NonEmpty(cert) && NonEmpty(key)
    ensures c'.privateKey.Some? ==> c'.privateKey == key
    ensures c'.privateKeyPass.Some? <==> NonEmpty(cert) && NonEmpty(key) && NonEmpty(pass)
    ensures c'.privateKeyPass.Some? ==> c'.privateKeyPass == pass
    ensures c'.(certificate := c.certificate, privateKey := c.privateKey, privateKeyPass := c.privateKeyPass) == c
    ensures CredentialsWellFormed(c) ==> CredentialsWellFormed(c')
  {
    var cleared := c.(certificate := None, privateKey := None, privateKeyPass := None);
    if !NonEmpty(cert) then cleared
    else if !NonEmpty(key) then cleared.(certificate := cert)
    else if !NonEmpty(pass) then cleared.(certificate := cert, privateKey := key)
    else cleared.(certificate := cert, privateKey := key, privateKeyPass := pass)
  }

  /** `apn_set_pkcs12_file`: clears both PKCS12 fields and stores the file
      with its passphrase when the file is non-empty. The C code asserts a
      non-empty passphrase in that case. The PEM fields are left alone. */
  function SetPkcs12File(c: Context, file: Option<string>, pass: Option<string>): (c': Context)
    requires NonEmpty(file) ==> NonEmpty(pass)
    ensures c'.pkcs12File == (if NonEmpty(file) then file else None)
    ensures c'.pkcs12Pass == (if NonEmpty(file) then pass else None)
    ensures c'.(pkcs12File := c.pkcs12File, pkcs12Pass := c.pkcs12Pass) == c
    ensures CredentialsWellFormed(c) ==> CredentialsWellFormed(c')
  {
    if NonEmpty(file) then c.(pkcs12File := file, pkcs12Pass := pass)
    else c.(pkcs12File := None, pkcs12Pass := None)
  }

  /** `apn_set_mode`. The C code maps every value other than sandbox to
      production; `Mode` has only those two values. */
  function SetMode(c: Context, mode: Mode): (c': Context)
    ensures c'.mode == mode && c'.(mode := c.mode) == c
  {
    c.(mode := mode)
  }

  /** The TLS setup takes the PKCS12 branch iff both PKCS12 fields are set
      (apn.c:982); otherwise it loads the PEM certificate and key. */
  predicate UsesPkcs12(c: Context)
  {
    c.pkcs12File.Some? && c.pkcs12Pass.Some?
  }

  /** Setting PEM credentials does not take the PKCS12 path away: a context
      with a PKCS12 file keeps using it whatever certificate is set later,
      and vice versa a PKCS12 file set after PEM credentials leaves them in
      place. */
  lemma SettersDoNotClearEachOther(c: Context, cert: Option<string>, key: Option<string>, pass: Option<string>, file: Option<string>, filePass: Option<string>)
    requires NonEmpty(file) ==> NonEmpty(filePass)
    ensures UsesPkcs12(SetCertificate(c, cert, key, pass)) == UsesPkcs12(c)
    ensures var c' := SetPkcs12File(c, file, filePass);
      c'.certificate == c.certificate && c'.privateKey == c.privateKey && c'.privateKeyPass == c.privateKeyPass
    ensures NonEmpty(file) ==> UsesPkcs12(SetCertificate(SetPkcs12File(c, file, filePass), cert, key, pass))
  {
  }

  /** What `__apn_password_callback` leaves in OpenSSL's buffer: `length`
      is its return value and `text` the C string in `buf`, or None when it
      returned without touching the buffer. */
  datatype Copied = Copied(length: int, text: Option<string>)

  /** `__apn_password_callback`: with no password or a non-positive size it
      returns 0; otherwise it copies at most `size - 1` bytes (one `char` per byte) and
      returns the length of the terminated copy. */
  function PasswordCallback(password: Option<string>, size: int): (r: Copied)
    requires password.Some? ==> '\0' !in password.value
    ensures password.None? || size <= 0 ==> r == Copied(0, None)
    ensures password.Some? && size > 0 ==> r.text.Some? && r.length == |r.text.value| && r.length < size
    ensures password.Some? && size > 0 ==> r.text.value <= password.value
  {
    if password.None? || size <= 0 then Copied(0, None)
    else
      var n := if |password.value| < size then |password.value| else size - 1;
      Copied(n, Some(password.value[..n]))
  }

  /** The copy is the whole password exactly when it fits with its
      terminator; otherwise it is cut to `size - 1` bytes. */
  lemma PasswordCopyLossless(password: string, size: int)
    requires '\0' !in password && size > 0
    ensures PasswordCallback(Some(password), size).text == Some(password) <==> |password| < size
    ensures |password| >= size ==> PasswordCallback(Some(password), size).length == size - 1
  {
    var r := PasswordCallback(Some(password), size);
    if |password| >= size {
      assert |r.text.value| == size - 1 < |password|;
    } else {
      assert password[..|password|] == password;
    }
  }

  /** The sinks one `__apn_log` call writes to. */
  datatype LogSinks = LogSinks(callback: bool, stderr: bool)

  /** The filter at the head of `__apn_log` (apn.c:799). */
  predicate Emits(c: Context, level: LogLevel)
  {
    (c.logCallback || c.options.logStderr) && level in c.logLevel
  }

  /** Where `__apn_log` delivers a message of `level` (apn.c:799-828). */
  function LogTargets(c: Context, level: LogLevel): (s: LogSinks)
    ensures s.callback ==> c.logCallback && level in c.logLevel
    ensures s.stderr ==> c.options.logStderr && level in c.logLevel
  {
    if !Emits(c, level) then LogSinks(false, false)
    else LogSinks(c.logCallback && level in c.logLevel, c.options.logStderr)
  }

  /** A message passes the filter exactly when some sink receives it; each
      sink receives it exactly when that sink is configured and the level is
      enabled. */
  lemma LogFilterExact(c: Context, level: LogLevel)
    ensures Emits(c, level) <==> LogTargets(c, level).callback || LogTargets(c, level).stderr
    ensures LogTargets(c, level).callback <==> c.logCallback && level in c.logLevel
    ensures LogTargets(c, level).stderr <==> c.options.logStderr && level in c.logLevel
  {
  }

  /** The tag `__apn_log` writes before a message on stderr: each level
      has its own three-letter tag, so the tag names the level. */
  function StderrPrefix(level: LogLevel): (p: string)
    ensures |p| == 3
    ensures p == "inf" <==> level == Info
    ensures p == "err" <==> level == Error
    ensures p == "dbg" <==> level == Debug
  {
    match level
    case Info => "inf"
    case Error => "err"
    case Debug => "dbg"
  }

  /** Size of the buffer `__apn_log` formats a message into. */
  const LogBufferSize := 1024

  /** What `vsnprintf` leaves in the buffer for a formatted message `text`
      (a C string): the text, cut to fit with its terminator. */
  function LogBuffer(text: string): (b: string)
    ensures b <= text && |b| < LogBufferSize
    ensures |text| < LogBufferSize <==> b == text
    ensures |text| >= LogBufferSize ==> b == text[..LogBufferSize - 1]
  {
    if |text| < LogBufferSize then text else text[..LogBufferSize - 1]
  }

  /** The line `__apn_log` writes to stderr: `[tag] message` and a newline. */
  function StderrLine(level: LogLevel, text: string): (line: string)
    ensures |line| == |LogBuffer(text)| + 7
    ensures line[0] == '[' && line[4..6] == "] " && line[|line| - 1] == '\n'
    ensures line[1..4] == StderrPrefix(level) && line[6..|line| - 1] == LogBuffer(text)
  {
    var tag := StderrPrefix(level);
    var buf := LogBuffer(text);
    var line := "[" + tag + "] " + buf + "\n";
    assert line[1..4] == tag;
    assert line[6..|line| - 1] == buf;
    line
  }

  /** Two messages print alike on stderr exactly when they have the same
      level and the same buffered text: the line gives both back. */
  lemma StderrLineReadable(level: LogLevel, text: string, level': LogLevel, text': string)
    ensures StderrLine(level, text) == StderrLine(level', text') <==> level == level' && LogBuffer(text) == LogBuffer(text')
  {
    var line, line' := StderrLine(level, text), StderrLine(level', text');
    if line == line' {
      assert StderrPrefix(level) == line[1..4] == StderrPrefix(level');
      assert LogBuffer(text) == line[6..|line| - 1] == LogBuffer(text');
    }
  }
}

=== FILE: engine.dfy ===
/** The batch send engine `__apn_send_binary_message`
    (src/library/apn.c:833-934). Socket readiness is an oracle: each
    `select()` outcome, together with what the read or write that follows it
    returns, is one `SocketEvent`. */
module BatchEngine {
  import opened Types
  import opened Errors
  import opened ErrorFrame

  /** A device token as the caller's array holds it (a hex string). */
  type Token = string

  /** One readiness wait and the I/O it leads to. */
  datatype SocketEvent =
    | Timeout                        // select() returned 0
    | Writable                       // only writable; __ssl_write sends the whole frame
    | WriteFail(e: IoError)          // only writable; __ssl_write fails with errno e
    | Readable(buf: ErrorBuffer)     // readable; __ssl_read returns > 0 and leaves buf
    | ReadFail(e: IoError)           // readable; __ssl_read fails with errno e
    | SelectFail(e: IoError)         // select() fails other than by EINTR

  /** What the engine does to the outside world, in order: stamp the frame
      buffer with an identifier and token, or write the buffer. */
  datatype Action = Stamp(id: nat, token: Token) | Write(id: nat)

  /** Which check ended a failed batch. */
  datatype Cause = SelectError | ReadError | WriteError | ServerReport

  /** `APN_SUCCESS`; `APN_ERROR` with the out-parameters (apple error code
      and invalid token index) and errno; or the oracle ran out while the C
      code would still be waiting. */
  datatype Outcome = Delivered | Rejected(cause: Cause, report: ErrorReport, errno: ApnError) | Waiting

  /** An engine run: its outcome, what it did, and the token index `i` it
      stopped at. */
  datatype Run = Run(outcome: Outcome, trace: seq<Action>, at: nat)

  /** Every token in `[a, b)` stamped and written, in index order. */
  function Schedule(tokens: seq<Token>, a: nat, b: nat): seq<Action>
    requires a <= b <= |tokens|
    decreases b - a
  {
    if a == b then [] else [Stamp(a, tokens[a]), Write(a)] + Schedule(tokens, a + 1, b)
  }

  function Prepend(act: Action, r: Run): Run
  {
    r.(trace := [act] + r.trace)
  }

  /** The batch from token `i` on: stamp the buffer, then wait. */
  function Loop(tokens: seq<Token>, i: nat, events: seq<SocketEvent>, errno: ApnError): Run
    requires i <= |tokens| < 0x1_0000_0000
    decreases |events|, 1
  {
    if i == |tokens| then Trailing(tokens, events, errno)
    else Prepend(Stamp(i, tokens[i]), Await(tokens, i, events, errno))
  }

  /** Token `i` is stamped; select until the socket is ready. Readability
      wins over writability: an error frame already waiting ends the batch
      before token `i` is written. */
  function Await(tokens: seq<Token>, i: nat, events: seq<SocketEvent>, errno: ApnError): Run
    requires i < |tokens| < 0x1_0000_0000
    decreases |events|, 0
  {
    if |events| == 0 then Run(Waiting, [], i)
    else
      match events[0]
      case Timeout => Await(tokens, i, events[1..], errno)
      case SelectFail(e) => Run(Rejected(SelectError, NoReport, e), [], i)
      case Readable(buf) => Run(Rejected(ServerReport, Parse(buf, NoReport), errno), [], i)
      case ReadFail(e) => Run(Rejected(ReadError, ErrorReport(0, i), e), [], i)
      case WriteFail(e) => Run(Rejected(WriteError, NoReport, e), [Write(i)], i)
      case Writable => Prepend(Write(i), Loop(tokens, i + 1, events[1..], errno))
  }

  /** After the last token: one short wait for a late error frame. Only
      the read set is watched, so anything but readability means nothing
      arrived and the batch succeeded. */
  function Trailing(tokens: seq<Token>, events: seq<SocketEvent>, errno: ApnError): Run
    requires |tokens| < 0x1_0000_0000
  {
    var n := |tokens|;
    if |events| == 0 then Run(Waiting, [], n)
    else
      match events[0]
      case SelectFail(e) => Run(Rejected(SelectError, NoReport, e), [], n)
      case Readable(buf) => Run(Rejected(ServerReport, Parse(buf, NoReport), errno), [], n)
      case ReadFail(e) => Run(Rejected(ReadError, ErrorReport(0, n), e), [], n)
      case _ => Run(Delivered, [], n)
  }

  /** `__apn_send_binary_message(tokens, start)`; `errno` is the value errno
      holds when the server's frame is read (that path does not set it). */
  function Engine(tokens: seq<Token>, start: nat, events: seq<SocketEvent>, errno: ApnError): Run
    requires start < |tokens| < 0x1_0000_0000
  {
    Loop(tokens, start, events, errno)
  }

  /** The actions of a run that stopped at index `at`: every earlier token
      stamped and written, then, short of the end, token `at` stamped, and
      written only when that write is what failed. */
  function Expected(tokens: seq<Token>, start: nat, r: Run): seq<Action>
    requires start <= r.at <= |tokens|
  {
    Schedule(tokens, start, r.at) + Unfinished(tokens, r)
  }

  /** The actions on the token a run stopped at, if it stopped short. */
  function Unfinished(tokens: seq<Token>, r: Run): seq<Action>
    requires r.at <= |tokens|
  {
    if r.at == |tokens| then []
    else if r.outcome.Rejected? && r.outcome.cause == WriteError then [Stamp(r.at, tokens[r.at]), Write(r.at)]
    else [Stamp(r.at, tokens[r.at])]
  }

  /** The shape of every run from index `i`: the trace is `Expected`, a
      write failure only happens inside the loop, success only after all
      tokens, a read failure reports the index it happened at, and a server
      frame names an index only when it reports an invalid token, and a
      transport failure leaves a transport code. */
  predicate WellShaped(tokens: seq<Token>, i: nat, r: Run)
  {
    && i <= r.at <= |tokens|
    && r.trace == Expected(tokens, i, r)
    && (r.outcome.Delivered? ==> r.at == |tokens|)
    && (r.outcome.Rejected? && r.outcome.cause == WriteError ==> r.at < |tokens|)
    && (r.outcome.Rejected? && r.outcome.cause == ReadError ==> r.outcome.report.status == 0 && r.outcome.report.id == r.at)
    && (r.outcome.Rejected? && r.outcome.cause in {SelectError, WriteError} ==> r.outcome.report == NoReport)
    && (r.outcome.Rejected? && r.outcome.cause == ServerReport && r.outcome.report.id != 0 ==> r.outcome.report.status == InvalidTokenStatus)
    && (r.outcome.Rejected? && r.outcome.cause != ServerReport ==> !IsServerKind(r.outcome.errno))
  }

  lemma {:induction false} LoopShape(tokens: seq<Token>, i: nat, events: seq<SocketEvent>, errno: ApnError)
    requires i <= |tokens| < 0x1_0000_0000
    ensures WellShaped(tokens, i, Loop(tokens, i, events, errno))
    decreases |events|, 1
  {
    if i < |tokens| {
      AwaitShape(tokens, i, events, errno);
    }
  }

  lemma {:induction false} AwaitShape(tokens: seq<Token>, i: nat, events: seq<SocketEvent>, errno: ApnError)
    requires i < |tokens| < 0x1_0000_0000
    ensures var r := Await(tokens, i, events, errno);
      WellShaped(tokens, i, Prepend(Stamp(i, tokens[i]), r))
    decreases |events|, 0
  {
    if |events| > 0 {
      match events[0]
      case Timeout =>
        AwaitShape(tokens, i, events[1..], errno);
      case Writable =>
        var rest := Loop(tokens, i + 1, events[1..], errno);
        LoopShape(tokens, i + 1, events[1..], errno);
        assert Schedule(tokens, i, rest.at)
          == [Stamp(i, tokens[i]), Write(i)] + Schedule(tokens, i + 1, rest.at);
      case _ =>
    }
  }

  /** The ordering promise of the engine: identifiers are stamped in index
      order from `start`, each token is written only after it is stamped and
      before the next is stamped, a readable socket ends the batch before the
      stamped token is written, a read failure reports the current index,
      and success means every token from `start` was written. */
  lemma EngineOrdering(tokens: seq<Token>, start: nat, events: seq<SocketEvent>, errno: ApnError)
    requires start < |tokens| < 0x1_0000_0000
    ensures var r := Engine(tokens, start, events, errno);
      && WellShaped(tokens, start, r)
      && (r.outcome.Delivered? ==> r.trace == Schedule(tokens, start, |tokens|))
  {
    LoopShape(tokens, start, events, errno);
  }

  /** The engine reads no event past the one that decides it: a run that
      finished is unchanged by whatever the oracle would have said next. In
      particular the trailing wait is not performed after an error frame
      was read inside the loop. */
  lemma {:induction false} LoopIgnoresLaterEvents(tokens: seq<Token>, i: nat, events: seq<SocketEvent>, more: seq<SocketEvent>, errno: ApnError)
    requires i <= |tokens| < 0x1_0000_0000
    requires !Loop(tokens, i, events, errno).outcome.Waiting?
    ensures Loop(tokens, i, events + more, errno) == Loop(tokens, i, events, errno)
    decreases |events|, 1
  {
    if i < |tokens| {
      AwaitIgnoresLaterEvents(tokens, i, events, more, errno);
    } else {
      assert (events + more)[0] == events[0];
    }
  }

  lemma {:induction false} AwaitIgnoresLaterEvents(tokens: seq<Token>, i: nat, events: seq<SocketEvent>, more: seq<SocketEvent>, errno: ApnError)
    requires i < |tokens| < 0x1_0000_0000
    requires !Await(tokens, i, events, errno).outcome.Waiting?
    ensures Await(tokens, i, events + more, errno) == Await(tokens, i, events, errno)
    decreases |events|, 0
  {
    assert (events + more)[0] == events[0];
    assert (events + more)[1..] == events[1..] + more;
    match events[0]
    case Timeout =>
      AwaitIgnoresLaterEvents(tokens, i, events[1..], more, errno);
    case Writable =>
      LoopIgnoresLaterEvents(tokens, i + 1, events[1..], more, errno);
    case _ =>
  }

  /** `n` copies of one event. */
  function Repeat(e: SocketEvent, n: nat): (s: seq<SocketEvent>)
    ensures |s| == n
  {
    if n == 0 then [] else [e] + Repeat(e, n - 1)
  }

  /** With no error from the server, a batch from `start` writes every
      remaining token exactly once, in index order, and succeeds once the
      trailing wait times out. */
  lemma {:induction false} QuietServerDeliversAll(tokens: seq<Token>, start: nat, errno: ApnError)
    requires start <= |tokens| < 0x1_0000_0000
    ensures Loop(tokens, start, Repeat(Writable, |tokens| - start) + [Timeout], errno)
      == Run(Delivered, Schedule(tokens, start, |tokens|), |tokens|)
    decreases |tokens| - start
  {
    var events := Repeat(Writable, |tokens| - start) + [Timeout];
    if start < |tokens| {
      var rest := Repeat(Writable, |tokens| - (start + 1)) + [Timeout];
      assert events == [Writable] + rest;
      assert events[0] == Writable && events[1..] == rest;
      QuietServerDeliversAll(tokens, start + 1, errno);
      assert Await(tokens, start, events, errno) == Prepend(Write(start), Loop(tokens, start + 1, rest, errno));
    } else {
      assert events == [Timeout];
    }
  }

  /** A run with `prefix` of already-performed actions in front. */
  function Behind(prefix: seq<Action>, r: Run): Run
  {
    r.(trace := prefix + r.trace)
  }

  lemma BehindPrepend(prefix: seq<Action>, act: Action, r: Run)
    ensures Behind(prefix, Prepend(act, r)) == Behind(prefix + [act], r)
  {
    assert prefix + ([act] + r.trace) == (prefix + [act]) + r.trace;
  }

  /** `__apn_send_binary_message` as the loop the C code runs: the outer
      loop over token indices, the inner select loop that re-waits on a
      timeout, and the trailing check. It performs exactly the run the
      recursive definition describes. */
  method SendBinaryMessage(tokens: seq<Token>, start: nat, events: seq<SocketEvent>, errno: ApnError) returns (r: Run)
    requires start < |tokens| < 0x1_0000_0000
    ensures r == Engine(tokens, start, events, errno)
  {
    var i := start;
    var k := 0;
    var trace: seq<Action> := [];
    assert Behind([], Loop(tokens, i, events, errno)) == Loop(tokens, i, events, errno);
    assert events[0..] == events;
    while i < |tokens|
      invariant start <= i <= |tokens|
      invariant k <= |events|
      invariant Engine(tokens, start, events, errno) == Behind(trace, Loop(tokens, i, events[k..], errno))
      decreases |tokens| - i
    {
      BehindPrepend(trace, Stamp(i, tokens[i]), Await(tokens, i, events[k..], errno));
      trace := trace + [Stamp(i, tokens[i])];
      while k < |events| && events[k].Timeout?
        invariant k <= |events|
        invariant Engine(tokens, start, events, errno) == Behind(trace, Await(tokens, i, events[k..], errno))
      {
        assert events[k..][1..] == events[k + 1..];
        k := k + 1;
      }
      if k == |events| {
        return Run(Waiting, trace, i);
      }
      var ev := events[k];
      assert events[k..][0] == ev && events[k..][1..] == events[k + 1..];
      if ev.SelectFail? {
        return Run(Rejected(SelectError, NoReport, ev.e), trace, i);
      } else if ev.Readable? {
        return Run(Rejected(ServerReport, Parse(ev.buf, NoReport), errno), trace, i);
      } else if ev.ReadFail? {
        return Run(Rejected(ReadError, ErrorReport(0, i), ev.e), trace, i);
      } else if ev.WriteFail? {
        return Run(Rejected(WriteError, NoReport, ev.e), trace + [Write(i)], i);
      }
      BehindPrepend(trace, Write(i), Loop(tokens, i + 1, events[k + 1..], errno));
      trace := trace + [Write(i)];
      i := i + 1;
      k := k + 1;
    }
    if k == |events| {
      return Run(Waiting, trace, i);
    }
    var ev := events[k];
    assert events[k..][0] == ev;
    if ev.SelectFail? {
      r := Run(Rejected(SelectError, NoReport, ev.e), trace, i);
    } else if ev.Readable? {
      r := Run(Rejected(ServerReport, Parse(ev.buf, NoReport), errno), trace, i);
    } else if ev.ReadFail? {
      r := Run(Rejected(ReadError, ErrorReport(0, i), ev.e), trace, i);
    } else {
      r := Run(Delivered, trace, i);
    }
  }
}

=== FILE: error_frame.dfy ===
/** The six-byte error frame a push server sends before dropping the
    connection: command byte, status byte, big-endian message identifier
    (src/library/apn.c:777-794). */
module ErrorFrame {
  import opened Types

  /** The receive buffer `apple_error_str[6]`. */
  type ErrorBuffer = s: seq<byte> | |s| == 6 witness [0, 0, 0, 0, 0, 0]

  /** The command byte that marks an error frame. */
  const ErrorCommand: byte := 8
  /** The one status whose identifier the parser reads. */
  const InvalidTokenStatus: byte := 8

  /** The two out-parameters `__apn_parse_apns_error` writes: the status
      byte and the identifier of the offending message. */
  datatype ErrorReport = ErrorReport(status: byte, id: uint32)

  /** What `apn_send` initialises the out-parameters to (apn.c:349-350). */
  const NoReport := ErrorReport(0, 0)

  /** `__apn_parse_apns_error`: starting from the caller's `prior` values,
      a frame whose command is not 8 changes nothing; otherwise the status
      is taken from byte 1, and the identifier from bytes 2-5 only when that
      status is 8 (invalid token). */
  function Parse(buf: ErrorBuffer, prior: ErrorReport): (r: ErrorReport)
    ensures buf[0] != ErrorCommand ==> r == prior
    ensures buf[0] == ErrorCommand ==> r.status == buf[1]
    ensures r.id != prior.id ==> buf[0] == ErrorCommand && buf[1] == InvalidTokenStatus
    ensures buf[0] == ErrorCommand && buf[1] == InvalidTokenStatus ==> EncodeBE32(r.id) == buf[2..6]
  {
    if buf[0] != ErrorCommand then prior
    else if buf[1] == InvalidTokenStatus then
      EncodeDecodeBE32(buf[2..6]);
      ErrorReport(buf[1], DecodeBE32(buf[2..6]))
    else prior.(status := buf[1])
  }

  /** The frame a server sends for `command`, `status` and identifier `id`. */
  function Encode(command: byte, status: byte, id: uint32): (buf: ErrorBuffer)
    ensures buf[0] == command && buf[1] == status
  {
    [command, status] + EncodeBE32(id)
  }

  /** Parsing an encoded error frame recovers its status, and its identifier
      exactly when the status is "invalid token"; otherwise the caller's
      identifier survives. */
  lemma ParseEncoded(status: byte, id: uint32, prior: ErrorReport)
    ensures Parse(Encode(ErrorCommand, status, id), prior)
      == ErrorReport(status, if status == InvalidTokenStatus then id else prior.id)
  {
    var buf := Encode(ErrorCommand, status, id);
    assert buf[2..6] == EncodeBE32(id);
    DecodeEncodeBE32(id);
  }

  /** A frame with any other command byte is ignored whatever it carries. */
  lemma ParseIgnoresOtherCommands(command: byte, status: byte, id: uint32, prior: ErrorReport)
    requires command != ErrorCommand
    ensures Parse(Encode(command, status, id), prior) == prior
  {
  }

  /** Every invalid-token frame is the encoding of what the parser reads
      from it: no byte of it is ignored. */
  lemma InvalidTokenFrameDetermined(buf: ErrorBuffer, prior: ErrorReport)
    requires buf[0] == ErrorCommand && buf[1] == InvalidTokenStatus
    ensures Encode(ErrorCommand, InvalidTokenStatus, Parse(buf, prior).id) == buf
  {
    var r := Parse(buf, prior);
    assert EncodeBE32(r.id) == buf[2..6];
    assert [buf[0], buf[1]] + buf[2..6] == buf;
  }
}

=== FILE: errors.dfy ===
/** The library's error taxonomy and the translation of the one-byte status a
    push server reports into it (src/library/apn.c:63-74, 950-967). */
module Errors {
  import opened Types

  /** The `APN_ERR_*` codes the core assigns to errno, plus the operating
      system's own errno values, which reach callers unchanged. The numeric
      values of the `APN_ERR_*` codes are defined in apn.h, which is not part
      of this model; the model only relies on them being distinct from each
      other and from system errno values. */
  datatype ApnError =
    | NotConnected
    | NotConnectedFeedback
    | ConnectionClosed
    | ConnectionTimedOut
    | NetworkUnreachable
    | TokenInvalid
    | CertificateIsNotSet
    | PrivateKeyIsNotSet
    | UnableToUseSpecifiedCertificate
    | UnableToUseSpecifiedPrivateKey
    | UnableToUseSpecifiedPkcs12
    | CouldNotInitializeSslConnection
    | SslWriteFailed
    | SslReadFailed
    | InvalidPayloadSize
    | ProcessingError
    | ServiceShutdown
    | Unknown
    | System(errno: int)

  /** The library's `apn_return` together with the errno it leaves behind. */
  datatype Ret = Success | Failure(code: ApnError)

  /** Status bytes of the server's error frame (`apn_apple_errors`). */
  const StatusNone: byte := 0
  const StatusProcessingError: byte := 1
  const StatusMissingDeviceToken: byte := 2
  const StatusMissingTopic: byte := 3
  const StatusMissingPayload: byte := 4
  const StatusInvalidTokenSize: byte := 5
  const StatusInvalidTopicSize: byte := 6
  const StatusInvalidPayloadSize: byte := 7
  const StatusInvalidToken: byte := 8
  const StatusServiceShutdown: byte := 10

  /** The kinds a nonzero status can be translated to. */
  predicate IsServerKind(e: ApnError)
  {
    e in {ProcessingError, InvalidPayloadSize, ServiceShutdown, TokenInvalid, Unknown}
  }

  /** An errno that a failing `select()`, `__ssl_write` or `__ssl_read`
      can leave: never one of the kinds a server status translates to
      (Transport.ClassifySharedTable). Every other code is admitted, which
      over-approximates the transport's own table. */
  type IoError = e: ApnError | !IsServerKind(e) witness ConnectionClosed

  /** `__apn_convert_apple_error`: status 0 yields nothing (the C function
      returns 0); only statuses 1, 5, 7, 8 and 10 are told apart. */
  function ConvertAppleError(status: byte): (r: Option<ApnError>)
    ensures r.None? <==> status == StatusNone
    ensures r.Some? ==> IsServerKind(r.value)
    ensures r == Some(ProcessingError) <==> status == StatusProcessingError
    ensures r == Some(InvalidPayloadSize) <==> status == StatusInvalidPayloadSize
    ensures r == Some(ServiceShutdown) <==> status == StatusServiceShutdown
    ensures r == Some(TokenInvalid) <==> status == StatusInvalidTokenSize || status == StatusInvalidToken
    ensures r == Some(Unknown) <==> status !in {0, 1, 5, 7, 8, 10}
  {
    if status == StatusNone then None
    else if status == StatusProcessingError then Some(ProcessingError)
    else if status == StatusInvalidPayloadSize then Some(InvalidPayloadSize)
    else if status == StatusServiceShutdown then Some(ServiceShutdown)
    else if status == StatusInvalidToken || status == StatusInvalidTokenSize then Some(TokenInvalid)
    else Some(Unknown)
  }

  /** The error `apn_send` acts on after a failed batch: the translated
      status when the server reported a nonzero one, else the errno the
      batch left behind. */
  function ErrorCode(status: byte, errno: ApnError): (r: ApnError)
    ensures status == StatusNone ==> r == errno
    ensures status != StatusNone ==> IsServerKind(r)
    ensures status != StatusNone ==> Some(r) == ConvertAppleError(status)
  {
    if status > 0 then ConvertAppleError(status).value else errno
  }

  /** Statuses the server defines for missing or oversized fields other than
      the token size are not distinguished: they all read as `Unknown`. */
  lemma FieldStatusesCollapse()
    ensures forall s: byte | s in {StatusMissingDeviceToken, StatusMissingTopic, StatusMissingPayload, StatusInvalidTopicSize}
              :: ConvertAppleError(s) == Some(Unknown)
    ensures ConvertAppleError(StatusInvalidTokenSize) == ConvertAppleError(StatusInvalidToken)
  {
  }
}

=== FILE: feedback.dfy ===
/** `apn_feedback`: reading the feedback service's answer for a context
    connected with `apn_feedback_connect` (src/library/apn.c:424-484). Each
    `select()` outcome, with the read that follows it, is one oracle event. */
module Feedback {
  import opened Types
  import opened Errors
  import opened Config
  import opened Lifecycle

  /** Bytes of a binary device token (`APN_TOKEN_BINARY_SIZE`). */
  const TokenSize := 32

  /** One feedback tuple on the wire: a 4-byte timestamp, a 2-byte token
      length, and the token (the buffer `apn_feedback` reads into). */
  const TupleSize := 4 + 2 + TokenSize

  type FeedbackBuffer = s: seq<byte> | |s| == TupleSize witness seq(TupleSize, _ => 0)

  /** A device token as the bytes the service sent. Its hex rendering is
      computed outside this model. */
  type DeviceToken = s: seq<byte> | |s| == TokenSize witness seq(TokenSize, _ => 0)

  /** The fields of a feedback tuple. */
  datatype FeedbackTuple = FeedbackTuple(timestamp: uint32, tokenLength: uint16, token: DeviceToken)

  /** Splits a buffer into its three fields, both integers in network order. */
  function DecodeTuple(buf: FeedbackBuffer): (t: FeedbackTuple)
    ensures EncodeBE32(t.timestamp) == buf[..4]
    ensures EncodeBE16(t.tokenLength) == buf[4..6]
    ensures t.token == buf[6..]
  {
    EncodeDecodeBE32(buf[..4]);
    EncodeDecodeBE16(buf[4..6]);
    FeedbackTuple(DecodeBE32(buf[..4]), DecodeBE16(buf[4..6]), buf[6..])
  }

  /** The buffer the service sends for a tuple. */
  function EncodeTuple(t: FeedbackTuple): (buf: FeedbackBuffer)
    ensures buf[6..] == t.token
  {
    EncodeBE32(t.timestamp) + EncodeBE16(t.tokenLength) + t.token
  }

  lemma DecodeEncodeTuple(t: FeedbackTuple)
    ensures DecodeTuple(EncodeTuple(t)) == t
  {
    var buf := EncodeTuple(t);
    assert buf[..4] == EncodeBE32(t.timestamp);
    assert buf[4..6] == EncodeBE16(t.tokenLength);
    DecodeEncodeBE32(t.timestamp);
    DecodeEncodeBE16(t.tokenLength);
  }

  lemma EncodeDecodeTuple(buf: FeedbackBuffer)
    ensures EncodeTuple(DecodeTuple(buf)) == buf
  {
    var t := DecodeTuple(buf);
    assert buf == buf[..4] + buf[4..6] + buf[6..];
  }

  /** What `apn_feedback` keeps of a tuple: the token bytes from offset 6.
      The timestamp is skipped and the length field, though decoded, is
      not used. */
  function TokenOf(buf: FeedbackBuffer): (token: DeviceToken)
    ensures token == DecodeTuple(buf).token
  {
    buf[6..]
  }

  /** Two tuples that differ only in their timestamp and length fields give
      the same token, and different token bytes give different tokens. */
  lemma TokenIgnoresHeader(a: FeedbackTuple, b: FeedbackTuple)
    ensures TokenOf(EncodeTuple(a)) == TokenOf(EncodeTuple(b)) <==> a.token == b.token
  {
  }

  /** One wait of the `for (;;)` loop and the read that follows it. */
  datatype FeedbackEvent =
    | Quiet                        // select() timed out
    | Interrupted                  // select() failed with EINTR
    | WaitFailed(errno: int)       // select() failed otherwise
    | ReadFailed(e: IoError)       // readable; __ssl_read failed with errno e
    | Received(buf: FeedbackBuffer)  // readable; __ssl_read delivered bytes into buf

  /** How a call ends: its return value and errno, and what `*tokens`
      holds (None: never assigned); or the oracle ran out while the loop
      was still retrying interrupted waits. */
  datatype FeedbackOutcome = Answered(ret: Ret, tokens: Option<seq<DeviceToken>>) | StillWaiting

  /** The read loop after the guard (apn.c:441-484): interrupted waits are
      retried; a timeout, a read, or any failure ends the call, so at most
      one tuple is ever read. The collection is assigned before the loop,
      so even the failures hand one (empty) back. */
  function ReadLoop(events: seq<FeedbackEvent>): (r: FeedbackOutcome)
    ensures r.Answered? ==> r.tokens.Some? && |r.tokens.value| <= 1
    ensures r.Answered? && r.ret.Failure? ==> r.tokens == Some([])
    ensures r.StillWaiting? <==> forall k :: 0 <= k < |events| ==> events[k] == Interrupted
  {
    if |events| == 0 then StillWaiting
    else
      match events[0]
      case Interrupted => ReadLoop(events[1..])
      case Quiet => Answered(Success, Some([]))
      case WaitFailed(n) => Answered(Failure(System(n)), Some([]))
      case ReadFailed(e) => Answered(Failure(e), Some([]))
      case Received(buf) => Answered(Success, Some([TokenOf(buf)]))
  }

  /** `n` interrupted waits. */
  function Interruptions(n: nat): (s: seq<FeedbackEvent>)
    ensures |s| == n
    ensures forall k :: 0 <= k < n ==> s[k] == Interrupted
  {
    if n == 0 then [] else [Interrupted] + Interruptions(n - 1)
  }

  /** Interrupted waits before the deciding event change nothing, and the
      deciding event alone fixes the answer: a timeout gives an empty
      success, a tuple gives exactly its token. */
  lemma {:induction false} InterruptionsIgnored(n: nat, e: FeedbackEvent, rest: seq<FeedbackEvent>)
    requires e != Interrupted
    ensures ReadLoop(Interruptions(n) + [e] + rest) == ReadLoop([e])
    ensures e == Quiet ==> ReadLoop([e]) == Answered(Success, Some([]))
    ensures e.Received? ==> ReadLoop([e]) == Answered(Success, Some([DecodeTuple(e.buf).token]))
    decreases n
  {
    var events := Interruptions(n) + [e] + rest;
    if n == 0 {
      assert events[0] == e;
    } else {
      assert events[0] == Interrupted;
      assert events[1..] == Interruptions(n - 1) + [e] + rest;
      InterruptionsIgnored(n - 1, e, rest);
    }
  }

  /** `apn_feedback` as written: the guard at apn.c:431 turns away a context
      without a session, and also every context with the feedback flag set,
      which is every context `apn_feedback_connect` produced. */
  function ApnFeedback(c: Context, events: seq<FeedbackEvent>): (r: FeedbackOutcome)
    ensures !c.session || c.feedback ==> r == Answered(Failure(NotConnected), None)
    ensures r.Answered? && r.ret.Success? ==> c.session && !c.feedback && r.tokens.Some? && |r.tokens.value| <= 1
  {
    if !c.session || c.feedback then Answered(Failure(NotConnected), None)
    else ReadLoop(events)
  }

  /** Whether a context is connected to the feedback service: a session
      opened after `apn_feedback_connect` set the flag. */
  predicate CanReceiveFeedback(c: Context)
  {
    c.session && c.feedback
  }

  /** The guard as evidently intended: read only from a context connected
      to the feedback service, mirroring the notification guard, and report
      the feedback service's own not-connected code, which apn.c defines
      (apn.c:504-505) but never assigns. */
  function ApnFeedbackIntended(c: Context, events: seq<FeedbackEvent>): (r: FeedbackOutcome)
    ensures !CanReceiveFeedback(c) ==> r == Answered(Failure(NotConnectedFeedback), None)
    ensures r.Answered? && r.ret.Success? ==> CanReceiveFeedback(c) && r.tokens.Some? && |r.tokens.value| <= 1
  {
    if !CanReceiveFeedback(c) then Answered(Failure(NotConnectedFeedback), None)
    else ReadLoop(events)
  }

  /** As written, a successful `apn_feedback_connect` leads to a context
      that `apn_feedback` always refuses, whatever the service sends; and a
      context connected to the notification gateway is read as if it were
      the feedback service. */
  lemma FeedbackAsWrittenRefusesFeedbackContext(c: Context, net: Network, events: seq<FeedbackEvent>, buf: FeedbackBuffer)
    requires FeedbackConnect(c, net).ret.Success?
    ensures ApnFeedback(FeedbackConnect(c, net).ctx, events) == Answered(Failure(NotConnected), None)
    ensures CanSend(c) ==> ApnFeedback(c, [Received(buf)]) == Answered(Success, Some([TokenOf(buf)]))
  {
    assert [Received(buf)][0] == Received(buf);
  }

  /** With the corrected guard, a context that `apn_feedback_connect`
      connected receives the token the service sends, a context that
      `apn_connect` connected is refused with the feedback not-connected
      code, and the two guards split connected contexts exactly: each one
      either sends notifications or reads feedback, never both. */
  lemma FeedbackIntendedServesFeedbackContext(c: Context, net: Network, buf: FeedbackBuffer, events: seq<FeedbackEvent>)
    requires CredentialsPresent(c) && c.sock.None? && net.Established?
    ensures var f := FeedbackConnect(c, net).ctx;
      ApnFeedbackIntended(f, [Received(buf)]) == Answered(Success, Some([TokenOf(buf)]))
    ensures !c.feedback ==> ApnFeedbackIntended(ApnConnect(c, net).ctx, events) == Answered(Failure(NotConnectedFeedback), None)
    ensures c.session ==> (CanSend(c) <==> !CanReceiveFeedback(c))
  {
    assert [Received(buf)][0] == Received(buf);
  }
}

=== FILE: lifecycle.dfy ===
/** Connection lifecycle: server selection, `__apn_connect` with the network
    and TLS stack as an oracle, `apn_close`, and the guards that decide
    whether a context may send (src/library/apn.c:76-86, 171-191, 296-311,
    413-422, 596-697, 969-1101). */
module Lifecycle {
  import opened Types
  import opened Errors
  import opened Config

  datatype Server = Server(host: string, port: uint16)

  /** `__apn_apple_servers`: notification gateways first, then feedback. */
  const Servers: seq<Server> := [
    Server("gateway.sandbox.push.apple.com", 2195),
    Server("gateway.push.apple.com", 2195),
    Server("feedback.sandbox.push.apple.com", 2196),
    Server("feedback.push.apple.com", 2196)
  ]

  datatype Service = Notification | FeedbackService

  /** The table entry `apn_connect` (sandbox: 0, else 1) and
      `apn_feedback_connect` (sandbox: 2, else 3) dial. */
  function ServerFor(service: Service, mode: Mode): (s: Server)
    ensures s in Servers
    ensures service == Notification && mode == Sandbox ==> s.host == "gateway.sandbox.push.apple.com"
    ensures service == Notification && mode == Production ==> s.host == "gateway.push.apple.com"
    ensures service == FeedbackService && mode == Sandbox ==> s.host == "feedback.sandbox.push.apple.com"
    ensures service == FeedbackService && mode == Production ==> s.host == "feedback.push.apple.com"
    ensures s.port == (if service == Notification then 2195 else 2196)
  {
    var index := (if service == Notification then 0 else 2) + (if mode == Sandbox then 0 else 1);
    Servers[index]
  }

  /** Each (service, mode) pair dials its own server. */
  lemma ServerForInjective(a: Service, m: Mode, b: Service, n: Mode)
    requires ServerFor(a, m) == ServerFor(b, n)
    ensures a == b && m == n
  {
    assert Servers[0].host != Servers[1].host;
    assert Servers[2].host != Servers[3].host;
  }

  /** The step of the PEM credential setup OpenSSL rejected. */
  datatype CredentialStep = CertificateStep | PrivateKeyStep | KeyCheckStep

  /** Where `__apn_tls_connect` gives up. */
  datatype TlsFailure =
    | ContextUnavailable             // SSL_CTX_new returned NULL
    | CredentialRejected(step: CredentialStep)  // a certificate, key or PKCS12 step failed
    | SessionUnavailable             // SSL_new returned NULL
    | AttachFailed                   // SSL_set_fd failed; the session already exists
    | HandshakeFailed                // SSL_connect failed; the session already exists

  /** The network and TLS stack's answer to one dial: the oracle standing for
      getaddrinfo, socket, connect and the OpenSSL handshake. `errno` is the
      system error those calls leave behind. */
  datatype Network =
    | ResolveFailed(errno: int)
    | NoSocket(errno: int)
    | Unreachable(errno: int)
    | TlsFailed(sock: nat, failure: TlsFailure, errno: int)
    | Established(sock: nat)

  /** The result of one connect call, and the server it dialled if any. */
  datatype Connection = Connection(ctx: Context, ret: Ret, dialled: Option<Server>)

  /** Credentials pass the pre-check of `__apn_connect` (apn.c:599-610). */
  predicate CredentialsPresent(c: Context)
  {
    c.pkcs12File.Some? || (c.certificate.Some? && c.privateKey.Some?)
  }

  /** The errno a failed TLS setup leaves: PKCS12 failures are all reported
      alike, PEM failures by the step, and the two failures that leave errno
      untouched pass the system error through. */
  function TlsError(c: Context, failure: TlsFailure, errno: int): (e: ApnError)
    ensures failure.CredentialRejected? ==> (e == UnableToUseSpecifiedPkcs12 <==> UsesPkcs12(c))
  {
    match failure
    case ContextUnavailable => System(errno)
    case CredentialRejected(step) =>
      if UsesPkcs12(c) then UnableToUseSpecifiedPkcs12
      else if step == CertificateStep then UnableToUseSpecifiedCertificate
      else UnableToUseSpecifiedPrivateKey
    case SessionUnavailable => CouldNotInitializeSslConnection
    case AttachFailed => CouldNotInitializeSslConnection
    case HandshakeFailed => System(errno)
  }

  /** `__apn_connect`: fails on missing credentials (certificate checked
      before key, and neither when a PKCS12 file is set), does nothing once a
      socket exists, and otherwise dials `server`. The socket is stored as
      soon as TCP connects (apn.c:678), before the TLS setup can fail. */
  function Connect(c: Context, server: Server, net: Network): (r: Connection)
    ensures c.pkcs12File.None? && c.certificate.None? ==> r == Connection(c, Failure(CertificateIsNotSet), None)
    ensures c.pkcs12File.None? && c.certificate.Some? && c.privateKey.None?
      ==> r == Connection(c, Failure(PrivateKeyIsNotSet), None)
    ensures CredentialsPresent(c) && c.sock.Some? ==> r == Connection(c, Success, None)
    ensures r.dialled.Some? <==> CredentialsPresent(c) && c.sock.None?
    ensures r.dialled.Some? ==> r.dialled == Some(server)
    ensures r.ctx.(sock := c.sock, session := c.session) == c
    ensures r.ctx != c ==> c.sock.None? && r.ctx.sock.Some?
    ensures r.ret.Success? && r.dialled.Some? ==> r.ctx.session
    ensures CredentialsPresent(c) && c.sock.None? && net.Established?
      ==> r.ret == Success && r.ctx.session && r.ctx.sock == Some(net.sock)
    ensures CredentialsPresent(c) && c.sock.None? && net.TlsFailed?
      ==> r.ret == Failure(TlsError(c, net.failure, net.errno)) && r.ctx.sock == Some(net.sock)
    ensures CredentialsPresent(c) && c.sock.None? && net.TlsFailed?
      ==> (r.ctx.session <==> net.failure == AttachFailed || net.failure == HandshakeFailed)
    ensures CredentialsPresent(c) && c.sock.None? && !net.TlsFailed? && !net.Established?
      ==> r == Connection(c, Failure(System(net.errno)), Some(server))
    ensures r.ret.Failure? ==> !IsServerKind(r.ret.code)
  {
    if c.pkcs12File.None? && c.certificate.None? then Connection(c, Failure(CertificateIsNotSet), None)
    else if c.pkcs12File.None? && c.privateKey.None? then Connection(c, Failure(PrivateKeyIsNotSet), None)
    else if c.sock.Some? then Connection(c, Success, None)
    else
      match net
      case ResolveFailed(e) => Connection(c, Failure(System(e)), Some(server))
      case NoSocket(e) => Connection(c, Failure(System(e)), Some(server))
      case Unreachable(e) => Connection(c, Failure(System(e)), Some(server))
      case TlsFailed(sock, failure, e) =>
        var session := failure == AttachFailed || failure == HandshakeFailed;
        Connection(c.(sock := Some(sock), session := session), Failure(TlsError(c, failure, e)), Some(server))
      case Established(sock) => Connection(c.(sock := Some(sock), session := true), Success, Some(server))
  }

  /** `apn_connect`: dial the notification gateway of the context's mode. */
  function ApnConnect(c: Context, net: Network): (r: Connection)
    ensures r.dialled.Some? ==> r.dialled.value.port == 2195
    ensures r.dialled.Some? ==>
      r.dialled.value.host == (if c.mode == Sandbox then "gateway.sandbox.push.apple.com" else "gateway.push.apple.com")
  {
    Connect(c, ServerFor(Notification, c.mode), net)
  }

  /** `apn_feedback_connect`: marks the context as a feedback context (even
      if the connect then fails) and dials the feedback service. */
  function FeedbackConnect(c: Context, net: Network): (r: Connection)
    ensures r.ctx.feedback
    ensures r.dialled.Some? ==> r.dialled.value.port == 2196
    ensures r.dialled.Some? ==>
      r.dialled.value.host == (if c.mode == Sandbox then "feedback.sandbox.push.apple.com" else "feedback.push.apple.com")
  {
    Connect(c.(feedback := true), ServerFor(FeedbackService, c.mode), net)
  }

  /** `apn_close`: releases the socket and the session only when a session
      exists; a socket without a session is left in place. */
  function Close(c: Context): (c': Context)
    ensures !c'.session
    ensures c.session ==> c'.sock.None?
    ensures !c.session ==> c' == c
    ensures c'.(sock := c.sock, session := c.session) == c
  {
    if c.session then c.(session := false, sock := None) else c
  }

  /** `__APN_CHECK_CONNECTION` (apn.c:306-311): sending needs a session on a
      context that is not a feedback context. */
  predicate CanSend(c: Context)
  {
    c.session && !c.feedback
  }

  /** Closing twice is closing once. */
  lemma CloseIdempotent(c: Context)
    ensures Close(Close(c)) == Close(c)
  {
  }

  /** A second connect without a close neither dials nor fails. */
  lemma ConnectTwiceIsNoOp(c: Context, server: Server, net: Network, server': Server, net': Network)
    requires Connect(c, server, net).ret.Success?
    ensures var r := Connect(c, server, net);
      Connect(r.ctx, server', net') == Connection(r.ctx, Success, None)
  {
  }

  /** Closing a context that holds a session and connecting again dials
      afresh. */
  lemma CloseThenConnectDials(c: Context, server: Server, net: Network)
    requires c.session && CredentialsPresent(c)
    ensures Connect(Close(c), server, net).dialled == Some(server)
  {
  }

  /** When the TLS setup fails before a session exists, the socket stays
      stored without one: closing keeps it, a later connect is a no-op that
      reports success, and the context still cannot send. */
  lemma EarlyTlsFailureWedges(c: Context, server: Server, sock: nat, failure: TlsFailure, errno: int, server': Server, net': Network)
    requires CredentialsPresent(c) && c.sock.None?
    requires failure in {ContextUnavailable, SessionUnavailable} || failure.CredentialRejected?
    ensures var r := Connect(c, server, TlsFailed(sock, failure, errno));
      && r.ret.Failure?
      && Close(r.ctx) == r.ctx
      && Connect(Close(r.ctx), server', net') == Connection(r.ctx, Success, None)
      && !CanSend(r.ctx)
  {
  }

  /** A context that went through `apn_feedback_connect` can never send
      again: no close or connect clears the flag. */
  lemma FeedbackContextNeverSends(c: Context, net: Network, server: Server, net': Network)
    ensures var f := FeedbackConnect(c, net).ctx;
      !CanSend(f) && !CanSend(Close(f)) && !CanSend(Connect(Close(f), server, net').ctx)
  {
  }
}

=== FILE: send.dfy ===
/** `apn_send`: the retry/reconnect controller around the batch engine,
    with invalid-token harvesting (src/library/apn.c:314-411). Each pass of
    its `for (;;)` loop consumes one `Round` of the oracle: the network's
    answer if the pass reconnects, the engine's socket events, and the errno
    the engine leaves when it does not set one. */
module Send {
  import opened Types
  import opened Errors
  import opened ErrorFrame
  import opened Config
  import opened Lifecycle
  import opened BatchEngine

  /** What the loop does after a failed batch. */
  datatype Decision =
    | Reconnect(start: uint32)             // close, reconnect, resume at start
    | RetrySameConnection(start: uint32)   // loop again from start without setting the reconnect
                                           // flag; a flag set by an earlier pass still reconnects
    | Succeed                              // success, errno cleared
    | Fail(code: ApnError)                 // failure with errno = code

  /** The errors after which the reconnect option applies. */
  predicate ReconnectEligible(e: ApnError)
  {
    e in {ConnectionClosed, ServiceShutdown, TokenInvalid}
  }

  /** Which failures of a batch allow a reconnect: of the server's statuses,
      exactly shutdown and the two invalid-token statuses; of the transport
      codes, exactly a closed connection. */
  lemma ReconnectEligibleCodes(status: byte, errno: ApnError)
    ensures status != StatusNone ==>
      (ReconnectEligible(ErrorCode(status, errno)) <==>
         status in {StatusInvalidTokenSize, StatusInvalidToken, StatusServiceShutdown})
    ensures status == StatusNone && !IsServerKind(errno) ==>
      (ReconnectEligible(ErrorCode(status, errno)) <==> errno == ConnectionClosed)
  {
  }

  /** The resume index before the reconnect rule: past the offending token
      for an invalid token, at it otherwise (apn.c:381). */
  function ResumeIndex(errcode: ApnError, index: uint32): uint32
  {
    if errcode == TokenInvalid then Succ32(index) else index
  }

  /** The decision of apn.c:381-402. A reconnect always resumes one past the
      reported index, whatever the error; when the resume index is still in
      range and the reconnect rule does not apply, the loop neither stops
      nor reconnects. */
  function Resume(errcode: ApnError, index: uint32, count: uint32, reconnect: bool): (d: Decision)
    ensures d.Succeed? <==> errcode == TokenInvalid && Succ32(index) >= count
    ensures d.Fail? <==> errcode != TokenInvalid && index >= count
    ensures d.Fail? ==> d.code == errcode
    ensures d.Reconnect? <==> ResumeIndex(errcode, index) < count && reconnect && ReconnectEligible(errcode)
    ensures d.Reconnect? ==> d.start == Succ32(index)
    ensures d.RetrySameConnection? ==> d.start == ResumeIndex(errcode, index) < count
  {
    var start := ResumeIndex(errcode, index);
    if start < count then
      if reconnect && ReconnectEligible(errcode) then Reconnect(Succ32(index)) else RetrySameConnection(start)
    else if errcode == TokenInvalid then Succeed
    else Fail(errcode)
  }

  /** `APN_TOKEN_LENGTH`: the characters of a hex device token, two per
      byte of a binary token. Its definition is in apn.h, which is not part
      of this model; the value used here is twice the 32-byte binary size. */
  const TokenLength := 64

  /** What `apn_strndup(token, APN_TOKEN_LENGTH)` copies: the token, cut to
      at most `TokenLength` bytes (one `char` per byte). */
  function Cut(t: Token): (u: Token)
    ensures u <= t && |u| <= TokenLength
    ensures |t| <= TokenLength <==> u == t
    ensures |t| > TokenLength ==> |u| == TokenLength
  {
    if |t| <= TokenLength then t else t[..TokenLength]
  }

  /** The copies the collection can hold: each batch token, cut. */
  function Cuts(tokens: seq<Token>): (cs: seq<Token>)
    ensures |cs| == |tokens|
    ensures forall j :: 0 <= j < |tokens| ==> cs[j] == Cut(tokens[j])
  {
    seq(|tokens|, j requires 0 <= j < |tokens| => Cut(tokens[j]))
  }

  /** One call of the invalid-token callback. */
  datatype Notice = Notice(token: Token, index: uint32)

  /** The invalid tokens gathered so far and the callbacks made. */
  datatype Harvest = Harvest(found: seq<Token>, notices: seq<Notice>)

  /** apn.c:357-375: on an invalid token, and only when the caller asked for
      the collection, append a copy of the token at the reported index, cut
      to `TokenLength` bytes, and tell the callback, with the whole
      token, if one is set. An index outside the batch contributes nothing
      here (the array lookup is not part of this model). */
  function Collect(h: Harvest, errcode: ApnError, index: uint32, tokens: seq<Token>, wanted: bool, callback: bool): (h': Harvest)
    ensures !(errcode == TokenInvalid && wanted && index < |tokens|) ==> h' == h
    ensures errcode == TokenInvalid && wanted && index < |tokens| ==>
      h'.found == h.found + [Cut(tokens[index])]
      && h'.notices == h.notices + (if callback then [Notice(tokens[index], index)] else [])
  {
    if errcode == TokenInvalid && wanted && index < |tokens| then
      var t := tokens[index];
      Harvest(h.found + [Cut(t)], if callback then h.notices + [Notice(t, index)] else h.notices)
    else h
  }

  /** The oracle for one pass of the loop. */
  datatype Round = Round(network: Network, events: seq<SocketEvent>, errno: ApnError)

  /** The loop variables carried from pass to pass: `start_index`, the
      `auto_reconnect` flag (never reset once set), the harvest, and every
      action of the engine so far. */
  datatype Progress = Progress(start: uint32, reconnecting: bool, harvest: Harvest, trace: seq<Action>)

  /** How `apn_send` ends: success, failure with errno, the assertion at
      apn.c:873 failing (the engine called with a start past the last
      token), or still looping when the oracle ran out. */
  datatype Status = Sent | Failed(code: ApnError) | AssertionFailure | Looping

  /** The call's result: status, context afterwards, what `*invalid_tokens`
      receives (None: left untouched), callback calls, and engine actions. */
  datatype SendResult = SendResult(status: Status, ctx: Context, invalid: Option<seq<Token>>, notices: seq<Notice>, trace: seq<Action>)

  /** apn.c:406-410: the collection is handed back only if it was asked for
      and is non-empty. */
  function Finish(status: Status, c: Context, wanted: bool, p: Progress): (r: SendResult)
    ensures r.invalid.Some? <==> wanted && |p.harvest.found| > 0
    ensures r.invalid.Some? ==> r.invalid.value == p.harvest.found
  {
    var invalid := if wanted && |p.harvest.found| > 0 then Some(p.harvest.found) else None;
    SendResult(status, c, invalid, p.harvest.notices, p.trace)
  }

  /** Every harvested token is the copy of one of the batch's tokens (the
      token itself when it fits `TokenLength`), and with no collection
      requested nothing is harvested. */
  predicate HarvestSound(p: Progress, tokens: seq<Token>, wanted: bool)
  {
    && (forall k :: 0 <= k < |p.harvest.found| ==> p.harvest.found[k] in Cuts(tokens))
    && (!wanted ==> p.harvest.found == [] && p.harvest.notices == [])
  }

  /** What every way out of the loop promises about the result `r`,
      relative to the context `c` and progress `p` a pass started from:
      tokens are only ever added to the collection and only batch tokens,
      the engine's actions only appended, the callback used only when set,
      and the feedback flag untouched. */
  predicate Extends(r: SendResult, c: Context, tokens: seq<Token>, wanted: bool, p: Progress)
  {
    && (r.invalid.Some? ==> wanted && |r.invalid.value| > 0)
    && (r.invalid.Some? ==> forall k :: 0 <= k < |r.invalid.value| ==> r.invalid.value[k] in Cuts(tokens))
    && (wanted && |p.harvest.found| > 0 ==> r.invalid.Some? && p.harvest.found <= r.invalid.value)
    && (!wanted ==> r.invalid.None? && r.notices == [])
    && (!c.invalidTokenCallback ==> r.notices == [])
    && p.trace <= r.trace
    && r.ctx.feedback == c.feedback
  }

  /** The loop invariant of `apn_send` between passes. */
  predicate Sound(c: Context, tokens: seq<Token>, wanted: bool, p: Progress)
  {
    HarvestSound(p, tokens, wanted) && (!c.invalidTokenCallback ==> p.harvest.notices == [])
  }

  /** The end of one pass: the call returns, or the loop goes round again
      with a new context and progress. */
  datatype Step = Stop(result: SendResult) | Continue(ctx: Context, next: Progress)

  /** The rest of a pass after the engine rejected the batch
      (apn.c:356-402): translate, harvest, and decide. */
  function AfterRejection(c: Context, tokens: seq<Token>, wanted: bool, report: ErrorReport, errno: ApnError, p: Progress): (s: Step)
    requires 0 < |tokens| < 0x1_0000_0000
    requires Sound(c, tokens, wanted, p)
    ensures s.Stop? ==> Extends(s.result, c, tokens, wanted, p)
    ensures s.Continue? ==> Sound(s.ctx, tokens, wanted, s.next) && s.ctx == c
    ensures s.Continue? ==> p.harvest.found <= s.next.harvest.found && p.trace == s.next.trace
    ensures s.Continue? && p.reconnecting ==> s.next.reconnecting
    ensures var d := Resume(ErrorCode(report.status, errno), report.id, |tokens|, c.options.reconnect);
      && (s.Stop? && s.result.status == Sent <==> d.Succeed?)
      && (d.Fail? <==> s.Stop? && s.result.status.Failed?)
      && (d.Fail? ==> s.result.status == Failed(d.code))
      && (s.Continue? ==> s.next.start == d.start && s.next.reconnecting == (p.reconnecting || d.Reconnect?))
    ensures var h := Collect(p.harvest, ErrorCode(report.status, errno), report.id, tokens, wanted, c.invalidTokenCallback);
      && (s.Continue? ==> s.next.harvest == h)
      && (s.Stop? ==> s.result.ctx == c && s.result.trace == p.trace && s.result.notices == h.notices)
      && (s.Stop? ==> s.result.invalid == (if wanted && |h.found| > 0 then Some(h.found) else None))
  {
    var errcode := ErrorCode(report.status, errno);
    var p' := p.(harvest := Collect(p.harvest, errcode, report.id, tokens, wanted, c.invalidTokenCallback));
    match Resume(errcode, report.id, |tokens|, c.options.reconnect)
    case Reconnect(s) => Continue(c, p'.(start := s, reconnecting := true))
    case RetrySameConnection(s) => Continue(c, p'.(start := s))
    case Succeed => Stop(Finish(Sent, c, wanted, p'))
    case Fail(e) => Stop(Finish(Failed(e), c, wanted, p'))
  }

  /** A rejected batch whose error code `apn_send` would fail with (one
      that is not an invalid token, at an index at or past the end) comes
      from a transport failure, so the code is never a server kind. */
  lemma EngineFailureIsTransport(tokens: seq<Token>, start: nat, events: seq<SocketEvent>, errno: ApnError)
    requires start < |tokens| < 0x1_0000_0000
    ensures var r := Engine(tokens, start, events, errno);
      r.outcome.Rejected? ==>
        var code := ErrorCode(r.outcome.report.status, r.outcome.errno);
        code != TokenInvalid && r.outcome.report.id >= |tokens| ==> !IsServerKind(code)
  {
    var r := Engine(tokens, start, events, errno);
    EngineOrdering(tokens, start, events, errno);
    if r.outcome.Rejected? && r.outcome.cause == ServerReport && r.outcome.report.id != 0 {
      assert ErrorCode(r.outcome.report.status, r.outcome.errno) == TokenInvalid;
    }
  }

  /** The engine's run from `p.start` on an open connection and what the
      pass does with its outcome (apn.c:338-402): a delivered batch or an
      exhausted oracle ends the call, a rejection goes through
      `AfterRejection`. */
  function Attempt(c: Context, tokens: seq<Token>, wanted: bool, round: Round, p: Progress): (s: Step)
    requires p.start < |tokens| < 0x1_0000_0000
    requires Sound(c, tokens, wanted, p)
    ensures s.Stop? ==> Extends(s.result, c, tokens, wanted, p)
    ensures s.Continue? ==> Sound(s.ctx, tokens, wanted, s.next) && s.ctx == c
    ensures s.Continue? ==> p.harvest.found <= s.next.harvest.found && p.trace <= s.next.trace
    ensures s.Continue? && p.reconnecting ==> s.next.reconnecting
    ensures var run := Engine(tokens, p.start, round.events, round.errno);
      var p' := p.(trace := p.trace + run.trace);
      && (run.outcome.Delivered? ==> s.Stop? && s.result.status == Sent && s.result.trace == p'.trace && s.result.ctx == c)
      && (run.outcome.Delivered? ==> s.result.notices == p.harvest.notices)
      && (run.outcome.Delivered? ==> s.result.invalid == (if wanted && |p.harvest.found| > 0 then Some(p.harvest.found) else None))
      && (run.outcome.Waiting? ==> s.Stop? && s.result.status == Looping && s.result.trace == p'.trace)
      && (run.outcome.Rejected? ==> s == AfterRejection(c, tokens, wanted, run.outcome.report, run.outcome.errno, p'))
    ensures s.Stop? && s.result.status.Failed? ==> !IsServerKind(s.result.status.code)
  {
    var run := Engine(tokens, p.start, round.events, round.errno);
    EngineFailureIsTransport(tokens, p.start, round.events, round.errno);
    var p' := p.(trace := p.trace + run.trace);
    match run.outcome
    case Delivered => Stop(Finish(Sent, c, wanted, p'))
    case Waiting => Stop(Finish(Looping, c, wanted, p'))
    case Rejected(_, report, errno) => AfterRejection(c, tokens, wanted, report, errno, p')
  }

  /** One pass of the `for (;;)` loop (apn.c:335-403): reconnect if the
      sticky flag is set, refuse a start past the batch, run the engine,
      then translate, harvest and decide. */
  function Pass(c: Context, tokens: seq<Token>, wanted: bool, round: Round, p: Progress): (s: Step)
    requires 0 < |tokens| < 0x1_0000_0000
    requires Sound(c, tokens, wanted, p)
    ensures s.Stop? ==> Extends(s.result, c, tokens, wanted, p)
    ensures s.Continue? ==> Sound(s.ctx, tokens, wanted, s.next)
    ensures s.Continue? ==> s.ctx.feedback == c.feedback && s.ctx.invalidTokenCallback == c.invalidTokenCallback
    ensures s.Continue? ==> p.harvest.found <= s.next.harvest.found && p.trace <= s.next.trace
    ensures s.Continue? && p.reconnecting ==> s.next.reconnecting
    ensures !p.reconnecting ==> (s.Stop? && s.result.status == AssertionFailure <==> p.start >= |tokens|)
    ensures !p.reconnecting && p.start < |tokens| ==> s == Attempt(c, tokens, wanted, round, p)
    ensures p.reconnecting && ApnConnect(Close(c), round.network).ret.Failure? ==>
      s.Stop? && s.result.status == Failed(ApnConnect(Close(c), round.network).ret.code)
    ensures p.reconnecting && ApnConnect(Close(c), round.network).ret.Success? ==>
      var c' := ApnConnect(Close(c), round.network).ctx;
      s == (if p.start >= |tokens| then Stop(Finish(AssertionFailure, c', wanted, p)) else Attempt(c', tokens, wanted, round, p))
    ensures s.Stop? && s.result.status.Failed? ==> !IsServerKind(s.result.status.code)
  {
    var conn := if p.reconnecting then ApnConnect(Close(c), round.network) else Connection(c, Success, None);
    if conn.ret.Failure? then Stop(Finish(Failed(conn.ret.code), conn.ctx, wanted, p))
    else if p.start >= |tokens| then Stop(Finish(AssertionFailure, conn.ctx, wanted, p))
    else Attempt(conn.ctx, tokens, wanted, round, p)
  }

  /** The `for (;;)` loop of `apn_send`, one pass per round; when the
      rounds run out the C loop would still be going. */
  function Iterate(c: Context, tokens: seq<Token>, wanted: bool, rounds: seq<Round>, p: Progress): (r: SendResult)
    requires 0 < |tokens| < 0x1_0000_0000
    requires Sound(c, tokens, wanted, p)
    ensures Extends(r, c, tokens, wanted, p)
    ensures r.status.Failed? ==> !IsServerKind(r.status.code)
    decreases |rounds|
  {
    if |rounds| == 0 then Finish(Looping, c, wanted, p)
    else
      match Pass(c, tokens, wanted, rounds[0], p)
      case Stop(r) => r
      case Continue(c', p') => Iterate(c', tokens, wanted, rounds[1..], p')
  }

  /** The loop's state before the first pass (apn.c:330-332). */
  const Initial := Progress(0, false, Harvest([], []), [])

  /** `apn_send(ctx, payload, tokens, invalid_tokens)`; `wanted` says
      whether `invalid_tokens` is non-NULL. The C code asserts a non-empty
      batch. */
  function ApnSend(c: Context, tokens: seq<Token>, wanted: bool, rounds: seq<Round>): (r: SendResult)
    requires 0 < |tokens| < 0x1_0000_0000
    ensures !CanSend(c) ==> r == SendResult(Failed(NotConnected), c, None, [], [])
    ensures r.invalid.Some? ==> wanted && |r.invalid.value| > 0
    ensures r.invalid.Some? ==> forall k :: 0 <= k < |r.invalid.value| ==> r.invalid.value[k] in Cuts(tokens)
    ensures !wanted ==> r.invalid.None? && r.notices == []
    ensures !c.invalidTokenCallback ==> r.notices == []
    ensures r.status == Failed(NotConnected) || r.ctx.feedback == c.feedback
    ensures r.status.Failed? ==> !IsServerKind(r.status.code)
  {
    if !CanSend(c) then SendResult(Failed(NotConnected), c, None, [], [])
    else Iterate(c, tokens, wanted, rounds, Initial)
  }

  /** Once the connection is up, the only engine failure that makes
      `apn_send` fail is a read error in the trailing wait after the last
      token, and its code is a transport code, never a server kind. A
      select, write or server error never carries an index at or past the
      end (a non-token status leaves the index at 0), so it never leads to
      a failure: it leads to another pass, or, for an invalid token at the
      last index, to success. */
  lemma FailureOnlyAfterLastToken(c: Context, tokens: seq<Token>, wanted: bool, round: Round, p: Progress)
    requires 0 < |tokens| < 0x1_0000_0000
    requires Sound(c, tokens, wanted, p)
    requires !p.reconnecting && p.start < |tokens|
    ensures var s := Pass(c, tokens, wanted, round, p);
      s.Stop? && s.result.status.Failed? ==>
        var run := Engine(tokens, p.start, round.events, round.errno);
        run.outcome.Rejected? && run.outcome.cause == ReadError && run.at == |tokens|
        && !IsServerKind(s.result.status.code)
  {
    var run := Engine(tokens, p.start, round.events, round.errno);
    EngineOrdering(tokens, p.start, round.events, round.errno);
    if run.outcome.Rejected? && run.outcome.cause == ServerReport {
      var report := run.outcome.report;
      if report.id != 0 {
        assert report.status == InvalidTokenStatus;
        assert ErrorCode(report.status, run.outcome.errno) == TokenInvalid;
      }
    } else if run.outcome.Rejected? {
      assert ErrorCode(run.outcome.report.status, run.outcome.errno) == run.outcome.errno;
    }
  }

  /** The first pass over a quiet server delivers the batch. */
  lemma QuietPass(c: Context, tokens: seq<Token>, wanted: bool, round: Round)
    requires 0 < |tokens| < 0x1_0000_0000 && CanSend(c)
    requires round.events == Repeat(Writable, |tokens|) + [Timeout]
    ensures Pass(c, tokens, wanted, round, Initial) == Stop(SendResult(Sent, c, None, [], Schedule(tokens, 0, |tokens|)))
  {
    QuietServerDeliversAll(tokens, 0, round.errno);
    var sched := Schedule(tokens, 0, |tokens|);
    assert Engine(tokens, 0, round.events, round.errno) == Run(Delivered, sched, |tokens|);
    assert Initial.trace + sched == sched;
    assert Pass(c, tokens, wanted, round, Initial) == Attempt(c, tokens, wanted, round, Initial);
    var s := Attempt(c, tokens, wanted, round, Initial);
    assert s.Stop? && s.result.status == Sent && s.result.trace == sched;
    assert s.result.invalid == None && s.result.notices == [];
  }

  /** A connected context and a server that stays quiet: the first pass
      writes every token once, in order, and the call succeeds on the same
      connection with nothing harvested, whatever later rounds would say. */
  lemma QuietBatchSent(c: Context, tokens: seq<Token>, wanted: bool, net: Network, errno: ApnError, later: seq<Round>)
    requires 0 < |tokens| < 0x1_0000_0000 && CanSend(c)
    ensures var r := ApnSend(c, tokens, wanted, [Round(net, Repeat(Writable, |tokens|) + [Timeout], errno)] + later);
      r == SendResult(Sent, c, None, [], Schedule(tokens, 0, |tokens|))
  {
    var round := Round(net, Repeat(Writable, |tokens|) + [Timeout], errno);
    var rounds := [round] + later;
    QuietPass(c, tokens, wanted, round);
    assert rounds[0] == round;
    assert Iterate(c, tokens, wanted, rounds, Initial) == SendResult(Sent, c, None, [], Schedule(tokens, 0, |tokens|));
  }

  /** A round in which the server's first answer is a "processing error"
      frame. */
  predicate AnswersProcessingError(round: Round)
  {
    |round.events| > 0 && round.events[0] == Readable(Encode(ErrorCommand, StatusProcessingError, 0))
  }

  /** A server status other than "invalid token" leaves the reported index
      at 0, so the batch restarts from the first token on the same
      connection, whether or not reconnection is enabled: a server that
      answers every batch with "processing error" keeps `apn_send` looping
      for as many passes as it answers. */
  lemma {:induction false} ProcessingErrorLoops(c: Context, tokens: seq<Token>, wanted: bool, rounds: seq<Round>, trace: seq<Action>)
    requires 0 < |tokens| < 0x1_0000_0000
    requires forall k :: 0 <= k < |rounds| ==> AnswersProcessingError(rounds[k])
    ensures var r := Iterate(c, tokens, wanted, rounds, Progress(0, false, Harvest([], []), trace));
      r.status == Looping && r.invalid.None? && r.ctx == c
    decreases |rounds|
  {
    if |rounds| > 0 {
      var round := rounds[0];
      assert AnswersProcessingError(round);
      var p := Progress(0, false, Harvest([], []), trace);
      var buf := Encode(ErrorCommand, StatusProcessingError, 0);
      ParseEncoded(StatusProcessingError, 0, NoReport);
      assert round.events[0] == Readable(buf);
      assert Await(tokens, 0, round.events, round.errno).outcome == Rejected(ServerReport, ErrorReport(StatusProcessingError, 0), round.errno);
      assert Engine(tokens, 0, round.events, round.errno) == Prepend(Stamp(0, tokens[0]), Await(tokens, 0, round.events, round.errno));
      var run := Engine(tokens, 0, round.events, round.errno);
      assert Pass(c, tokens, wanted, round, p) == Continue(c, Progress(0, false, Harvest([], []), trace + run.trace));
      ProcessingErrorLoops(c, tokens, wanted, rounds[1..], trace + run.trace);
    }
  }

  /** The context every scenario below starts from: connected for sending,
      with PEM credentials so that a reconnect can dial. */
  predicate Ready(c: Context)
  {
    CanSend(c) && CredentialsPresent(c)
  }

  /** The first round of the A, B, C scenarios: A and B written, C
      stamped, then the server's frame naming B is read. */
  lemma FirstRoundRejectsB(errno: ApnError)
    ensures Engine(["A", "B", "C"], 0, [Writable, Writable, Readable(Encode(ErrorCommand, InvalidTokenStatus, 1))], errno)
      == Run(Rejected(ServerReport, ErrorReport(InvalidTokenStatus, 1), errno), [Stamp(0, "A"), Write(0), Stamp(1, "B"), Write(1), Stamp(2, "C")], 2)
  {
    var tokens := ["A", "B", "C"];
    var buf := Encode(ErrorCommand, InvalidTokenStatus, 1);
    ParseEncoded(InvalidTokenStatus, 1, NoReport);
    var events := [Writable, Writable, Readable(buf)];
    var report := Run(Rejected(ServerReport, ErrorReport(InvalidTokenStatus, 1), errno), [], 2);
    assert events[1..] == [Writable, Readable(buf)] && events[2..] == [Readable(buf)];
    assert Await(tokens, 2, [Readable(buf)], errno) == report;
    assert Loop(tokens, 2, [Readable(buf)], errno) == Prepend(Stamp(2, "C"), report);
    assert [Writable, Readable(buf)][1..] == [Readable(buf)];
    assert Await(tokens, 1, [Writable, Readable(buf)], errno) == Prepend(Write(1), Prepend(Stamp(2, "C"), report));
    assert Loop(tokens, 1, events[1..], errno) == Prepend(Stamp(1, "B"), Prepend(Write(1), Prepend(Stamp(2, "C"), report)));
    assert Await(tokens, 0, events, errno) == Prepend(Write(0), Loop(tokens, 1, events[1..], errno));
    assert Loop(tokens, 0, events, errno) == Prepend(Stamp(0, "A"), Prepend(Write(0), Prepend(Stamp(1, "B"), Prepend(Write(1), Prepend(Stamp(2, "C"), report)))));
  }

  /** The second round of the A, B, C scenarios: C written, then the
      trailing wait times out. */
  lemma SecondRoundDeliversC(errno: ApnError)
    ensures Engine(["A", "B", "C"], 2, [Writable, Timeout], errno) == Run(Delivered, [Stamp(2, "C"), Write(2)], 3)
  {
    var tokens := ["A", "B", "C"];
    assert [Writable, Timeout][1..] == [Timeout];
    assert Loop(tokens, 3, [Timeout], errno) == Run(Delivered, [], 3);
  }

  /** The first pass of the A, B, C scenarios: B is harvested and the loop
      goes round again from C, reconnecting exactly when the option is
      set. */
  lemma FirstPassRejectsB(c: Context, wanted: bool, net: Network, errno: ApnError)
    requires Ready(c)
    ensures Pass(c, ["A", "B", "C"], wanted, Round(net, [Writable, Writable, Readable(Encode(ErrorCommand, InvalidTokenStatus, 1))], errno), Initial)
      == Continue(c, Progress(2, c.options.reconnect, Collect(Harvest([], []), TokenInvalid, 1, ["A", "B", "C"], wanted, c.invalidTokenCallback),
                             [Stamp(0, "A"), Write(0), Stamp(1, "B"), Write(1), Stamp(2, "C")]))
  {
    FirstRoundRejectsB(errno);
    if c.options.reconnect {
      assert Resume(TokenInvalid, 1, 3, true) == Reconnect(2);
    } else {
      assert Resume(TokenInvalid, 1, 3, false) == RetrySameConnection(2);
    }
  }

  /** The second pass of the reconnecting scenario: the new connection
      delivers C. */
  lemma ReconnectedPassDeliversC(c: Context, wanted: bool, sock: nat, errno: ApnError, p: Progress)
    requires Ready(c) && p.start == 2 && p.reconnecting
    requires Sound(c, ["A", "B", "C"], wanted, p)
    ensures var conn := ApnConnect(Close(c), Established(sock));
      && conn.ret == Success && conn.ctx.sock == Some(sock)
      && Pass(c, ["A", "B", "C"], wanted, Round(Established(sock), [Writable, Timeout], errno), p)
         == Stop(Finish(Sent, conn.ctx, wanted, p.(trace := p.trace + [Stamp(2, "C"), Write(2)])))
  {
    var tokens := ["A", "B", "C"];
    var round := Round(Established(sock), [Writable, Timeout], errno);
    SecondRoundDeliversC(errno);
    var conn := ApnConnect(Close(c), Established(sock));
    assert conn.ret == Success && conn.ctx.sock == Some(sock);
    assert Pass(c, tokens, wanted, round, p) == Attempt(conn.ctx, tokens, wanted, round, p);
  }

  /** Three tokens A, B, C; the server rejects B (identifier 1) after C was
      stamped. With reconnection enabled the loop reconnects and resumes at
      C, which is written once, on the new connection; the call succeeds and
      hands back B. */
  lemma InvalidTokenWithReconnect(c: Context, wanted: bool, net: Network, errno: ApnError, sock: nat, errno': ApnError)
    requires Ready(c) && c.options.reconnect
    ensures var tokens := ["A", "B", "C"];
      var rounds := [
        Round(net, [Writable, Writable, Readable(Encode(ErrorCommand, InvalidTokenStatus, 1))], errno),
        Round(Established(sock), [Writable, Timeout], errno')];
      var r := ApnSend(c, tokens, wanted, rounds);
      && r.status == Sent
      && r.invalid == (if wanted then Some(["B"]) else None)
      && r.trace == [Stamp(0, "A"), Write(0), Stamp(1, "B"), Write(1), Stamp(2, "C"), Stamp(2, "C"), Write(2)]
      && r.ctx.sock == Some(sock)
  {
    var tokens := ["A", "B", "C"];
    var rounds := [
      Round(net, [Writable, Writable, Readable(Encode(ErrorCommand, InvalidTokenStatus, 1))], errno),
      Round(Established(sock), [Writable, Timeout], errno')];
    var first := [Stamp(0, "A"), Write(0), Stamp(1, "B"), Write(1), Stamp(2, "C")];
    assert Cut("B") == "B";
    var h := Collect(Harvest([], []), TokenInvalid, 1, tokens, wanted, c.invalidTokenCallback);
    assert h.found == (if wanted then ["B"] else []);
    var p1 := Progress(2, true, h, first);
    FirstPassRejectsB(c, wanted, net, errno);
    ReconnectedPassDeliversC(c, wanted, sock, errno', p1);
    var conn := ApnConnect(Close(c), Established(sock));
    var p2 := p1.(trace := first + [Stamp(2, "C"), Write(2)]);
    assert Iterate(c, tokens, wanted, rounds[1..], p1) == Finish(Sent, conn.ctx, wanted, p2);
    assert Iterate(c, tokens, wanted, rounds, Initial) == Iterate(c, tokens, wanted, rounds[1..], p1);
  }

  /** The same batch with reconnection disabled: the code does not give up
      on B but loops again on the same connection from C, and succeeds once
      C is through. */
  lemma InvalidTokenWithoutReconnect(c: Context, wanted: bool, net: Network, errno: ApnError, net': Network, errno': ApnError)
    requires Ready(c) && !c.options.reconnect
    ensures var tokens := ["A", "B", "C"];
      var rounds := [
        Round(net, [Writable, Writable, Readable(Encode(ErrorCommand, InvalidTokenStatus, 1))], errno),
        Round(net', [Writable, Timeout], errno')];
      var r := ApnSend(c, tokens, wanted, rounds);
      && r.status == Sent
      && r.invalid == (if wanted then Some(["B"]) else None)
      && r.trace == [Stamp(0, "A"), Write(0), Stamp(1, "B"), Write(1), Stamp(2, "C"), Stamp(2, "C"), Write(2)]
      && r.ctx == c
  {
    var tokens := ["A", "B", "C"];
    var rounds := [
      Round(net, [Writable, Writable, Readable(Encode(ErrorCommand, InvalidTokenStatus, 1))], errno),
      Round(net', [Writable, Timeout], errno')];
    FirstRoundRejectsB(errno);
    SecondRoundDeliversC(errno');
    var first := [Stamp(0, "A"), Write(0), Stamp(1, "B"), Write(1), Stamp(2, "C")];
    var h := Collect(Harvest([], []), TokenInvalid, 1, tokens, wanted, c.invalidTokenCallback);
    assert Resume(TokenInvalid, 1, 3, false) == RetrySameConnection(2);
    var p1 := Progress(2, false, h, first);
    assert Pass(c, tokens, wanted, rounds[0], Initial) == Continue(c, p1);
    var p2 := p1.(trace := first + [Stamp(2, "C"), Write(2)]);
    assert Pass(c, tokens, wanted, rounds[1], p1) == Stop(Finish(Sent, c, wanted, p2));
    assert Iterate(c, tokens, wanted, rounds[1..], p1) == Finish(Sent, c, wanted, p2);
    assert Iterate(c, tokens, wanted, rounds, Initial) == Iterate(c, tokens, wanted, rounds[1..], p1);
    assert h.found == (if wanted then ["B"] else []);
  }

  /** An invalid token at the last index ends the call with success, the
      token handed back, and the callback told, whatever the connection
      options. */
  lemma InvalidLastTokenSucceeds(c: Context, tokens: seq<Token>, wanted: bool, rounds: seq<Round>)
    requires 0 < |tokens| < 0x1_0000_0000 && CanSend(c) && |rounds| > 0
    requires Engine(tokens, 0, rounds[0].events, rounds[0].errno).outcome.Rejected?
    requires Engine(tokens, 0, rounds[0].events, rounds[0].errno).outcome.report == ErrorReport(InvalidTokenStatus, |tokens| - 1)
    ensures var r := ApnSend(c, tokens, wanted, rounds);
      && r.status == Sent
      && r.invalid == (if wanted then Some([Cut(tokens[|tokens| - 1])]) else None)
      && r.notices == (if wanted && c.invalidTokenCallback then [Notice(tokens[|tokens| - 1], |tokens| - 1)] else [])
  {
    var last := |tokens| - 1;
    var run := Engine(tokens, 0, rounds[0].events, rounds[0].errno);
    assert ErrorCode(InvalidTokenStatus, run.outcome.errno) == TokenInvalid;
    assert Resume(TokenInvalid, last, |tokens|, c.options.reconnect) == Succeed;
    var p := Initial.(trace := run.trace);
    var h := Collect(Harvest([], []), TokenInvalid, last, tokens, wanted, c.invalidTokenCallback);
    assert h.found == (if wanted then [Cut(tokens[last])] else []);
    assert Pass(c, tokens, wanted, rounds[0], Initial) == Stop(Finish(Sent, c, wanted, p.(harvest := h)));
  }

  /** A status-10 frame ("shutdown") on a one-token batch with reconnection
      enabled: the loop reconnects and resumes one past the reported index
      0, which is past the end, so the engine's assertion fails on the next
      pass. */
  lemma ReconnectPastEndAborts(c: Context, token: Token, wanted: bool, net: Network, errno: ApnError, sock: nat, events: seq<SocketEvent>, errno': ApnError)
    requires Ready(c) && c.options.reconnect
    ensures var rounds := [
        Round(net, [Readable(Encode(ErrorCommand, StatusServiceShutdown, 0))], errno),
        Round(Established(sock), events, errno')];
      ApnSend(c, [token], wanted, rounds).status == AssertionFailure
  {
    var rounds := [
      Round(net, [Readable(Encode(ErrorCommand, StatusServiceShutdown, 0))], errno),
      Round(Established(sock), events, errno')];
    var events0 := rounds[0].events;
    ParseEncoded(StatusServiceShutdown, 0, NoReport);
    assert events0[0] == Readable(Encode(ErrorCommand, StatusServiceShutdown, 0));
    var run := Engine([token], 0, events0, errno);
    assert run == Prepend(Stamp(0, token), Await([token], 0, events0, errno));
    assert run == Run(Rejected(ServerReport, ErrorReport(StatusServiceShutdown, 0), errno), [Stamp(0, token)], 0);
    assert Resume(ServiceShutdown, 0, 1, true) == Reconnect(1);
    var p1 := Progress(1, true, Harvest([], []), run.trace);
    assert Pass(c, [token], wanted, rounds[0], Initial) == Continue(c, p1);
    assert ApnConnect(Close(c), Established(sock)).ret == Success;
    assert Pass(c, [token], wanted, rounds[1], p1).result.status == AssertionFailure;
    assert Iterate(c, [token], wanted, rounds[1..], p1).status == AssertionFailure;
  }

  /** An "invalid token size" frame is treated as an invalid token, but the
      identifier is parsed only for status 8, so the token blamed is always
      the first of the batch, whichever one the server named. */
  lemma InvalidTokenSizeBlamesFirstToken(c: Context, tokens: seq<Token>, wanted: bool, net: Network, id: uint32, errno: ApnError)
    requires 1 < |tokens| < 0x1_0000_0000 && CanSend(c)
    ensures var r := ApnSend(c, tokens, wanted, [Round(net, [Writable, Readable(Encode(ErrorCommand, StatusInvalidTokenSize, id))], errno)]);
      r.invalid == (if wanted then Some([Cut(tokens[0])]) else None)
  {
    var buf := Encode(ErrorCommand, StatusInvalidTokenSize, id);
    var events := [Writable, Readable(buf)];
    var round := Round(net, events, errno);
    ParseEncoded(StatusInvalidTokenSize, id, NoReport);
    assert events[1..] == [Readable(buf)];
    var report := Run(Rejected(ServerReport, ErrorReport(StatusInvalidTokenSize, 0), errno), [], 1);
    assert Await(tokens, 1, [Readable(buf)], errno) == report;
    assert Await(tokens, 0, events, errno) == Prepend(Write(0), Prepend(Stamp(1, tokens[1]), report));
    var run := Engine(tokens, 0, events, errno);
    assert run.outcome == report.outcome;
    var h := Collect(Harvest([], []), TokenInvalid, 0, tokens, wanted, c.invalidTokenCallback);
    assert h.found == (if wanted then [Cut(tokens[0])] else []);
    var s := Pass(c, tokens, wanted, round, Initial);
    assert s.Continue? && s.next.harvest == h;
    assert Iterate(s.ctx, tokens, wanted, [], s.next) == Finish(Looping, s.ctx, wanted, s.next);
    assert [round][0] == round && [round][1..] == [];
    assert ApnSend(c, tokens, wanted, [round]) == Iterate(s.ctx, tokens, wanted, [], s.next);
  }
}

=== FILE: transport.dfy ===
/** The TLS read/write wrappers `__ssl_write` and `__ssl_read`
    (src/library/apn.c:699-775). OpenSSL is an oracle: each call to
    SSL_write/SSL_read is one entry of a sequence the caller supplies, either
    a positive byte count or an (SSL_get_error kind, errno) pair. */
module Transport {
  import opened Types
  import opened Errors

  /** The `SSL_get_error` results the wrappers distinguish. */
  datatype SslError = WantRead | WantWrite | Syscall | ZeroReturn | NoError | OtherSslError

  /** The errno values the wrappers distinguish after `SSL_ERROR_SYSCALL`. */
  datatype OsErrno = EIntr | EPipe | ETimedOut | OtherErrno(n: int)

  datatype Direction = Writing | Reading

  /** Whether a failed call is retried or ends the wrapper with an errno. */
  datatype Verdict = Retry | Fatal(code: ApnError)

  type Positive = n: nat | n > 0 witness 1

  /** The errno the wrappers fall back to for failures they do not name. */
  function GenericFailure(dir: Direction): ApnError
  {
    if dir == Writing then SslWriteFailed else SslReadFailed
  }

  /** The error table both wrappers share (apn.c:706-731 and 747-772). */
  function Classify(dir: Direction, kind: SslError, errno: OsErrno): (v: Verdict)
    ensures v.Retry? <==> kind == WantRead || kind == WantWrite || (kind == Syscall && errno == EIntr)
    ensures v == Fatal(ConnectionClosed) <==> kind == ZeroReturn || kind == NoError
    ensures v == Fatal(NetworkUnreachable) <==> kind == Syscall && errno == EPipe
    ensures v == Fatal(ConnectionTimedOut) <==> kind == Syscall && errno == ETimedOut
    ensures v == Fatal(GenericFailure(dir)) <==> kind == OtherSslError || (kind == Syscall && errno.OtherErrno?)
  {
    match kind
    case WantWrite => Retry
    case WantRead => Retry
    case Syscall =>
      (match errno
       case EIntr => Retry
       case EPipe => Fatal(NetworkUnreachable)
       case ETimedOut => Fatal(ConnectionTimedOut)
       case OtherErrno(_) => Fatal(GenericFailure(dir)))
    case ZeroReturn => Fatal(ConnectionClosed)
    case NoError => Fatal(ConnectionClosed)
    case OtherSslError => Fatal(GenericFailure(dir))
  }

  /** Reading and writing classify every failure alike except the catch-all,
      and no transport failure is ever one of the server-reported kinds, so
      it never counts as an invalid token. */
  lemma ClassifySharedTable(kind: SslError, errno: OsErrno)
    ensures Classify(Writing, kind, errno) != Classify(Reading, kind, errno)
      <==> Classify(Writing, kind, errno) == Fatal(SslWriteFailed)
    ensures forall dir: Direction | Classify(dir, kind, errno).Fatal? :: !IsServerKind(Classify(dir, kind, errno).code)
  {
    forall dir: Direction | Classify(dir, kind, errno).Fatal?
      ensures !IsServerKind(Classify(dir, kind, errno).code)
    {
      var c := Classify(dir, kind, errno).code;
      assert c in {ConnectionClosed, NetworkUnreachable, ConnectionTimedOut, SslWriteFailed, SslReadFailed};
    }
  }

  /** One SSL_write result: bytes accepted, or the error it reported. */
  datatype WriteCall = Wrote(n: Positive) | WriteError(kind: SslError, errno: OsErrno)

  /** One SSL_read result: bytes delivered, or the error it reported. */
  datatype ReadCall = Got(n: Positive) | ReadError(kind: SslError, errno: OsErrno)

  /** How a wrapper ends: all bytes moved, a failure with its errno, or the
      oracle ran out while the C loop would still be retrying. */
  datatype IoResult = Completed(bytes: nat) | Broken(code: ApnError) | Blocked

  predicate FatalWrite(c: WriteCall)
  {
    c.WriteError? && Classify(Writing, c.kind, c.errno).Fatal?
  }

  predicate RetryableRead(c: ReadCall)
  {
    c.ReadError? && Classify(Reading, c.kind, c.errno).Retry?
  }

  /** Bytes accepted over a run of SSL_write calls. */
  function Written(calls: seq<WriteCall>): nat
  {
    if |calls| == 0 then 0
    else Written(calls[..|calls| - 1]) + (if calls[|calls| - 1].Wrote? then calls[|calls| - 1].n else 0)
  }

  /** OpenSSL's side of the contract: SSL_write never reports more bytes
      than it was asked to write, for every call the wrapper makes. */
  predicate WithinRequest(calls: seq<WriteCall>, remaining: nat)
  {
    remaining == 0 || |calls| == 0 ||
    match calls[0]
    case Wrote(n) => n <= remaining && WithinRequest(calls[1..], remaining - n)
    case WriteError(k, e) => Classify(Writing, k, e).Fatal? || WithinRequest(calls[1..], remaining)
  }

  /** `__ssl_write`: keeps calling SSL_write until `length` bytes are taken,
      retrying the transient errors; returns the total, or the errno of the
      first fatal error. `used` is how many oracle entries were consumed. */
  method SslWrite(length: nat, calls: seq<WriteCall>) returns (r: IoResult, used: nat)
    requires WithinRequest(calls, length)
    ensures used <= |calls|
    ensures r.Completed? ==> r.bytes == length && Written(calls[..used]) == length
    ensures r.Completed? && length > 0 ==> used > 0 && calls[used - 1].Wrote?
    ensures r.Broken? ==> used > 0 && calls[used - 1].WriteError? && Written(calls[..used]) < length
    ensures r.Broken? ==> Classify(Writing, calls[used - 1].kind, calls[used - 1].errno) == Fatal(r.code)
    ensures r.Blocked? ==> used == |calls| && Written(calls) < length
    ensures forall j :: 0 <= j < used && !(r.Broken? && j == used - 1) ==> !FatalWrite(calls[j])
  {
    var remaining := length;
    var total := 0;
    used := 0;
    while remaining > 0
      invariant used <= |calls|
      invariant total == Written(calls[..used]) && total + remaining == length
      invariant used == 0 ==> remaining == length
      invariant used > 0 && !calls[used - 1].Wrote? ==> remaining > 0
      invariant forall j :: 0 <= j < used ==> !FatalWrite(calls[j])
      invariant WithinRequest(calls[used..], remaining)
      decreases |calls| - used
    {
      if used == |calls| {
        assert calls[..used] == calls;
        return Blocked, used;
      }
      var c := calls[used];
      assert calls[..used + 1][..used] == calls[..used];
      assert calls[used..][1..] == calls[used + 1..];
      used := used + 1;
      match c
      case Wrote(n) =>
        total := total + n;
        remaining := remaining - n;
      case WriteError(k, e) =>
        match Classify(Writing, k, e)
        case Retry =>
        case Fatal(code) =>
          return Broken(code), used;
    }
    return Completed(total), used;
  }

  /** `__ssl_read`: calls SSL_read until it delivers bytes, retrying the
      transient errors; returns the (positive) count, or the errno of the
      first fatal error. */
  method SslRead(calls: seq<ReadCall>) returns (r: IoResult, used: nat)
    ensures used <= |calls|
    ensures r.Completed? ==> used > 0 && calls[used - 1].Got? && calls[used - 1].n == r.bytes
    ensures r.Broken? ==> used > 0 && calls[used - 1].ReadError?
    ensures r.Broken? ==> Classify(Reading, calls[used - 1].kind, calls[used - 1].errno) == Fatal(r.code)
    ensures r.Blocked? ==> used == |calls|
    ensures forall j :: 0 <= j < used - 1 ==> RetryableRead(calls[j])
    ensures r.Blocked? ==> forall j :: 0 <= j < |calls| ==> RetryableRead(calls[j])
  {
    used := 0;
    while used < |calls|
      invariant used <= |calls|
      invariant forall j :: 0 <= j < used ==> RetryableRead(calls[j])
    {
      var c := calls[used];
      used := used + 1;
      match c
      case Got(n) =>
        return Completed(n), used;
      case ReadError(k, e) =>
        match Classify(Reading, k, e)
        case Retry =>
        case Fatal(code) =>
          return Broken(code), used;
    }
    return Blocked, used;
  }
}

=== FILE: types.dfy ===
/** Machine-level value types shared by the model: C's fixed-width unsigned
    integers as subset types of `int`, an optional value for what the C
    code may leave NULL, and the network-byte-order codecs behind
    ntohs/ntohl. */
module Types {

  type byte = x: int | 0 <= x < 0x100
  type uint16 = x: int | 0 <= x < 0x1_0000
  type uint32 = x: int | 0 <= x < 0x1_0000_0000

  /** A value that may be absent (NULL in the C code). */
  datatype Option<+T> = None | Some(value: T)

  /** A C string argument that is non-NULL and non-empty (`s && strlen(s) > 0`). */
  predicate NonEmpty(s: Option<string>)
  {
    s.Some? && |s.value| > 0
  }

  /** `x + 1` computed in `uint32_t`: wraps to 0 past 0xFFFF_FFFF. */
  function Succ32(x: uint32): (r: uint32)
    ensures x < 0xFFFF_FFFF ==> r == x + 1
    ensures x == 0xFFFF_FFFF ==> r == 0
  {
    (x + 1) % 0x1_0000_0000
  }

  /** Two bytes in network order read as an unsigned value (ntohs). */
  function DecodeBE16(b: seq<byte>): uint16
    requires |b| == 2
  {
    b[0] as int * 0x100 + b[1] as int
  }

  function EncodeBE16(v: uint16): (b: seq<byte>)
    ensures |b| == 2
  {
    [v / 0x100, v % 0x100]
  }

  /** Four bytes in network order read as an unsigned value (ntohl). */
  function DecodeBE32(b: seq<byte>): uint32
    requires |b| == 4
  {
    b[0] as int * 0x100_0000 + b[1] as int * 0x1_0000 + b[2] as int * 0x100 + b[3] as int
  }

  function EncodeBE32(v: uint32): (b: seq<byte>)
    ensures |b| == 4
  {
    var q1 := v / 0x100;
    var q2 := q1 / 0x100;
    [q2 / 0x100, q2 % 0x100, q1 % 0x100, v % 0x100]
  }

  lemma DecodeEncodeBE16(v: uint16)
    ensures DecodeBE16(EncodeBE16(v)) == v
  {
  }

  lemma EncodeDecodeBE16(b: seq<byte>)
    requires |b| == 2
    ensures EncodeBE16(DecodeBE16(b)) == b
  {
  }

  lemma DecodeEncodeBE32(v: uint32)
    ensures DecodeBE32(EncodeBE32(v)) == v
  {
    var q1 := v / 0x100;
    var q2 := q1 / 0x100;
    assert v == q1 * 0x100 + v % 0x100;
    assert q1 == q2 * 0x100 + q1 % 0x100;
    assert q2 == (q2 / 0x100) * 0x100 + q2 % 0x100;
  }

  lemma EncodeDecodeBE32(b: seq<byte>)
    requires |b| == 4
    ensures EncodeBE32(DecodeBE32(b)) == b
  {
    var v := DecodeBE32(b);
    var q1 := b[0] as int * 0x1_0000 + b[1] as int * 0x100 + b[2] as int;
    var q2 := b[0] as int * 0x100 + b[1] as int;
    SplitByte(v, q1, b[3]);
    SplitByte(q1, q2, b[2]);
    SplitByte(q2, b[0], b[1]);
  }

  /** Division by 256 recovers the quotient and remainder a value was built from. */
  lemma SplitByte(x: int, q: int, r: int)
    requires 0 <= r < 0x100
    requires x == q * 0x100 + r
    ensures x / 0x100 == q && x % 0x100 == r
  {
  }
}
